=== FILE: README.md ===
# flake8-pyi fixture test, modelled in Dafny

flake8-pyi checks `.pyi` stub files. Its conformance test
`tests/test_pyi_files.py` runs the analyzer on every fixture under `tests/`
and compares the output with expectations written into the fixture itself.
This project models the pure text processing that surrounds the two analyzer
runs, and proves what it guarantees:

- **the version gate** (lines 16-19): a fixture named `…_py3<N>.pyi` is
  skipped on interpreters older than 3.N;
- **the fixture parser** (lines 24-36): `# flags: ` lines add command-line
  flags, other `#` lines are comments, and on every other line each
  annotation `# X000 ` (an upper-case letter, three digits and a space)
  becomes one expected line `path:lineno: X000 message`, where the message
  runs to the next annotation or to the end of the line and is stripped;
- **the column normaliser** (line 56): `re.sub(":[0-9]+: ", ": ", output)`,
  modelled as a deterministic left-to-right scan and proved equal to the
  regex substitution;
- **the comparison** (line 57): the test's verdict for one fixture, given the
  text of the two analyzer runs.

Modules, one per file:

| file | module | what it holds |
|---|---|---|
| `wrappers.dfy` | `Wrappers` | `Option` |
| `text.dfy` | `Text` | `str.isspace`, `strip()`, `split()`, `str(n)`, `int(s)`, digit runs |
| `version_gate.dfy` | `VersionGate` | the regex `_py3(\d+)\.pyi$` and the skip decision |
| `matches.dfy` | `Matches` | the annotation regex, `re.finditer`, one turn of the `zip_longest` loop |
| `annotations.dfy` | `Annotations` | the diagnostics of one line and the expected output text |
| `fixture.dfy` | `Fixture` | the loop over all lines: flags, diagnostics, counting, order |
| `fixture_examples.dfy` | `FixtureExamples` | lines with one or two annotations, and worked examples |
| `normalizer.dfy` | `Normalizer` | the column normaliser and the regex substitution it implements |
| `comparator.dfy` | `Comparator` | the verdict, and why faithful analyzer output passes |

The analyzer is not modelled. The text of its two runs is a parameter of
`Comparator.Evaluate`, and `Comparator.Report` describes the output shape
that the comparison is designed to accept.

Whitespace for `strip()` and `split()` is Python's full `str.isspace` set (29
code points), not only ASCII. `\d` and `[0-9]` are ASCII digits.

The normalisation is not idempotent: `a:5: x` becomes `a: x`, because the
line-number field itself has the shape `:<digits>: `. `Normalizer.NotIdempotent`
proves this for every `P:L:C: R` where `P` has no `:`, `L` and `C` are digit
strings and `R` holds no match: normalising once gives `P:L: R`, normalising
again gives `P: R`.

## Model

| member | source | states |
|---|---|---|
| VersionGate.VersionSuffixIsRegex | tests/test_pyi_files.py:16 | The suffix scan returns group `d` exactly when `_py3(\d+)\.pyi$` matches the path with group `d`, including the match before one final newline. |
| VersionGate.UnsuffixedAlwaysRuns | tests/test_pyi_files.py:16-19 | A path that the suffix regex does not match is never skipped, on any version. |
| VersionGate.SuffixedSkipsOlder | tests/test_pyi_files.py:17-19 | With suffix `_py3<d>`, the fixture is skipped iff `(major, minor) < (3, int(d))` as a tuple comparison. |
| VersionGate.Py312Example | tests/test_pyi_files.py:16-19 | `_py312` fixtures are skipped on 3.11 and 2.99, and run on 3.12 and 4.0. |
| VersionGate.BareSuffixExample | tests/test_pyi_files.py:16-17 | `_py3.pyi` has no digit group, so the fixture always runs. |
| VersionGate.NonNumericSuffixExample | tests/test_pyi_files.py:16-17 | `_py3x.pyi` does not match, so the fixture always runs. |
| VersionGate.OtherExtensionExample | tests/test_pyi_files.py:16-17 | A `.py` file with the suffix is not gated. |
| Text.StripUnique | tests/test_pyi_files.py:35 | `strip()` returns the one slice that has no whitespace at either end and only whitespace outside it. |
| Text.StripIsTrimmedSlice | tests/test_pyi_files.py:35 | `strip()` removes whitespace from both ends and nothing else. |
| Text.SplitIsWords | tests/test_pyi_files.py:26 | Every token of `split()` is non-empty and holds no whitespace. |
| Text.SplitJoin | tests/test_pyi_files.py:26 | `split()` undoes joining words with single spaces. |
| Text.SplitSkipsSpace | tests/test_pyi_files.py:26 | Leading whitespace does not change what `split()` returns. |
| Text.Decimal | tests/test_pyi_files.py:36 | The line number prints as a canonical digit string whose value is the number. |
| Text.DecimalRoundTrip | tests/test_pyi_files.py:36 | Printing the value of a canonical digit string gives that string back. |
| Matches.Scan | tests/test_pyi_files.py:31 | `re.finditer` finds ascending matches at least 7 characters apart, and exactly every index where the annotation regex matches. |
| Matches.ScanUnique | tests/test_pyi_files.py:31 | Any ascending, spaced list of all the matches is the list `re.finditer` returns. |
| Matches.NextCode | tests/test_pyi_files.py:33-34 | A message ends at the next index where an annotation starts, or at the end of the line, with no annotation before that end. |
| Matches.MatchFits | tests/test_pyi_files.py:33-35 | Each match ends before the next match starts, so one loop turn takes the 5-character code group and the stripped text up to the next match. |
| Matches.NoCodeBetween | tests/test_pyi_files.py:31-34 | No annotation starts between two consecutive matches, or after the last one. |
| Annotations.AnnotationAtDescribes | tests/test_pyi_files.py:33-35 | The diagnostic a loop turn builds has the line number, the code group, and the stripped message up to the next annotation. |
| Annotations.LineAnnotationsSound | tests/test_pyi_files.py:31-35 | Each diagnostic of a line describes one of its annotations, and they go strictly left to right. |
| Annotations.LineAnnotationsComplete | tests/test_pyi_files.py:31-33 | Every annotation of a content line yields a diagnostic. |
| Annotations.CodeShape | tests/test_pyi_files.py:31-36 | Every code is an upper-case letter, three digits and the kept trailing space. |
| Annotations.MessageShape | tests/test_pyi_files.py:34-35 | Every message has no whitespace at either end and contains no annotation. |
| Annotations.ExpectedOutputAppend | tests/test_pyi_files.py:36 | The expected output of a concatenation is the concatenation of the expected outputs. |
| Annotations.LineExpectation | tests/test_pyi_files.py:31-36 | The inner loop appends exactly the expected lines of the line's diagnostics, in order. |
| Fixture.DirectiveFlagsAfterMarker | tests/test_pyi_files.py:25-26 | `split()[2:]` of a `# flags: ` line drops exactly the marker's two words, leaving the words after the marker. |
| Fixture.ParseFlags | tests/test_pyi_files.py:25-29 | The flags are the words after the marker of every directive line, in line order; no other line adds any. |
| Fixture.ParseSound | tests/test_pyi_files.py:24-36 | Every diagnostic has a line number from 1 to the number of lines, comes from a content line, and describes an annotation on it. |
| Fixture.MarkedLinesSilent | tests/test_pyi_files.py:25-29 | A directive or comment line yields no diagnostic, whatever annotations it holds. |
| Fixture.LinenoBound | tests/test_pyi_files.py:24 | No diagnostic reports a line number beyond the last line. |
| Fixture.ParseOrdered | tests/test_pyi_files.py:24-33 | Diagnostics are ordered by line number, then left to right within a line. |
| Fixture.ParseComplete | tests/test_pyi_files.py:24-33 | Every annotation on a content line yields a diagnostic. |
| Fixture.CountIsCodePositions | tests/test_pyi_files.py:24-33 | The number of expected lines equals the number of annotation positions on content lines. |
| Fixture.BuildExpectation | tests/test_pyi_files.py:13-36 | The loop as written returns the flags and the expected output that the line-by-line definition gives. |
| FixtureExamples.OneAnnotation | tests/test_pyi_files.py:31-35 | A line with a single annotation, whatever other `#` it holds, yields one diagnostic: its code, and the rest of the line, stripped. |
| FixtureExamples.TwoAnnotations | tests/test_pyi_files.py:33-35 | With exactly two annotations, whatever other `#` the line holds, the first message stops where the second annotation starts and the second runs to the end of the line. |
| FixtureExamples.EmptyMessage | tests/test_pyi_files.py:35-36 | The only annotation of a line, at its end, gives an expected line ending in the code's space and the newline, such as `E001 \n`. |
| FixtureExamples.UnusedVariableExample | tests/test_pyi_files.py:31-36 | `x = 1  # E001 unused variable` on line 5 of `p` gives `p:5: E001 unused variable\n`. |
| FixtureExamples.BadTypeExample | tests/test_pyi_files.py:31-35 | `y  # E002 bad type # E003 bad default` gives messages `bad type` and `bad default`. |
| FixtureExamples.SeeIssueExample | tests/test_pyi_files.py:31-35 | In `x  # E001 see #12 # E002 y` the `#` of `#12` starts no annotation, so the messages are `see #12` and `y`. |
| Normalizer.Normalize | tests/test_pyi_files.py:56 | Normalising never lengthens the text. |
| Normalizer.ColumnHereIsMatch | tests/test_pyi_files.py:56 | The scan's test at a position succeeds exactly where `:[0-9]+: ` matches, with the same length. |
| Normalizer.MatchUnique | tests/test_pyi_files.py:56 | At any index the pattern matches with at most one length, so backtracking has nothing to choose. |
| Normalizer.NormalizeIsReSub | tests/test_pyi_files.py:56 | The scan equals the leftmost, non-overlapping regex substitution. |
| Normalizer.NormalizeFixedIff | tests/test_pyi_files.py:56 | The text is unchanged exactly when the pattern occurs nowhere in it. |
| Normalizer.MarkerShrinks | tests/test_pyi_files.py:56 | Any occurrence of the pattern makes the output strictly shorter. |
| Normalizer.NoColonUnchanged | tests/test_pyi_files.py:56 | Text without `:` is unchanged. |
| Normalizer.SeparatedConcat | tests/test_pyi_files.py:56 | Text split after a character that is neither `:` nor a digit normalises piece by piece. |
| Normalizer.DropColumn | tests/test_pyi_files.py:56 | `P:L:C: R` becomes `P:L: R` when `P` has no `:`, `L` and `C` are digit strings and `R` has no match. |
| Normalizer.DropColumnRest | tests/test_pyi_files.py:56 | `P:L:C: R` becomes `P:L: ` followed by the normalised `R`, whatever `R` holds, when `P` has no `:` and `L` and `C` are digit strings. |
| Normalizer.DropColumnOnce | tests/test_pyi_files.py:56 | `P:L: R` becomes `P: R`: the line number itself is removed. |
| Normalizer.NotIdempotent | tests/test_pyi_files.py:56 | Normalising `P:L:C: R` twice gives `P: R`, which differs from normalising it once. |
| Comparator.Evaluate | tests/test_pyi_files.py:16-57 | The fixture is skipped iff the gate says so; otherwise it passes iff both normalised outputs equal the expected output; a failure carries the first mismatch. |
| Comparator.ReportLineNormalizes | tests/test_pyi_files.py:56-57 | One analyzer report `path:L:C: CODE msg` normalises to exactly its expected line, when the path and the code have no `:` and the message contains no `:<digits>: `. |
| Comparator.MarkedMessageBreaksReport | tests/test_pyi_files.py:56-57 | When the message contains `:<digits>: `, a report with a colon-free path never normalises to its expected line, so the comparison at line 57 fails even for a faithful analyzer. |
| Comparator.ReportNormalizes | tests/test_pyi_files.py:56-57 | Reports of the expected diagnostics, with any columns, normalise to the expected output when the path has no `:` and no message contains a match. |
| Comparator.ParsedCodesColonFree | tests/test_pyi_files.py:31-36 | No parsed code contains `:`. |
| Comparator.PassesOnFaithfulReports | tests/test_pyi_files.py:54-57 | The comparison passes when both runs report exactly the annotated diagnostics, in order, with any columns, provided the path has no `:` and no message contains `:<digits>: `. |

## Left out

- The two `flake8` runs (lines 38-52): the subprocess calls, `PYTHONPATH`, the
  command-line arguments and stdin. They run an external program, so their
  output is a parameter of `Comparator.Evaluate`. The program passes the flags
  to both runs (lines 41 and 47); in the model, `Fixture.Parse(lines).flags`
  and the `flags` of `Fixture.BuildExpectation` have no consumer, because the
  runs themselves are parameters.
- Fixture discovery with `glob` and pytest parametrisation (line 11). These are
  filesystem and test-framework work.
- Reading the file, and UTF-8 decoding of the file and of the analyzer output
  (lines 21-22, 55). Input arrives as already-decoded text.
- `pytest.skip` as an exception. The skip is the boolean `VersionGate.ShouldSkip`
  and the `Skipped` outcome.
- `str.splitlines()` (line 24): the fixture arrives as a sequence of lines.
  Python's extra line separators (`\r`, `\x0b`, `\x85`, `\u2028` and others) are not
  modelled.
- Unicode digits: Python's `\d` in `_py3(\d+)` and `[A-Z]\d\d\d`, and `int()`,
  accept every Unicode decimal digit. The model accepts only ASCII `0-9`.
- `sys.version_info` has five fields. The model keeps `(major, minor)`;
  comparing that pair with `(3, N)` gives the same answer as comparing the
  full tuple.
- Comparator.ReportNormalizes: it assumes the path has no `:` and no message
  contains `:<digits>: `. Otherwise the normaliser may also rewrite parts of
  the path or the message, and the expected output need not be reproduced.
- Comparator.ReportLineNormalizes: it assumes the path and the code have no
  `:` and the message contains no `:<digits>: `. Parsed codes never hold a
  `:` (`Comparator.ParsedCodesColonFree`). A marked message makes the report
  fail to match (`Comparator.MarkedMessageBreaksReport`).
- Comparator.PassesOnFaithfulReports: it assumes the path has no `:` and no
  message contains `:<digits>: `. A fixture annotated `# E001 see a:5: b`
  fails the comparison even when the analyzer reports exactly that
  diagnostic (`Comparator.MarkedMessageBreaksReport`).

=== FILE: annotations.dfy ===
/** The expected diagnostics of one content line of a fixture
    (tests/test_pyi_files.py, lines 31-36): each `# X000 ` annotation (an
    upper-case letter, three digits and a space) yields one diagnostic whose
    message runs to the next annotation or to the end of the line, and each
    diagnostic prints as one line of the expected output. */
module Annotations {
  import opened Text
  import opened Matches

  /** `a` is the diagnostic that the annotation at `a.offset` of `line`, line
      number `lineno`, asks for: its code group, and its message trimmed from
      the end of the match up to the next annotation or the end of the line. */
  ghost predicate Describes(line: string, lineno: nat, a: Annotation) {
    && a.lineno == lineno
    && IsCodeAt(line, a.offset)
    && a.code == line[a.offset + 2..a.offset + 7]
    && a.message == Strip(line[a.offset + 7..NextCode(line, a.offset + 1)])
  }

  lemma AnnotationAtDescribes(line: string, lineno: nat, occs: seq<nat>, k: nat)
    requires occs == Occurrences(line) && k < |occs|
    ensures Describes(line, lineno, AnnotationAt(line, lineno, occs, k))
  {
    var p := occs[k];
    var e := if k + 1 < |occs| then occs[k + 1] else |line|;
    assert p + 7 <= e by { if k + 1 < |occs| { assert Spaced(occs); } }
    forall q | p < q < e
      ensures !IsCodeAt(line, q)
    {
      NoCodeBetween(line, occs, k, q);
    }
    NextCodeIs(line, p + 1, e);
  }

  lemma {:induction false} AnnotationsUpToIndex(line: string, lineno: nat, occs: seq<nat>, k: nat)
    requires k <= |occs|
    ensures |AnnotationsUpTo(line, lineno, occs, k)| == k
    ensures forall j :: 0 <= j < k ==> AnnotationsUpTo(line, lineno, occs, k)[j] == AnnotationAt(line, lineno, occs, j)
  {
    if k > 0 {
      AnnotationsUpToIndex(line, lineno, occs, k - 1);
      var prev := AnnotationsUpTo(line, lineno, occs, k - 1);
      var a := AnnotationAt(line, lineno, occs, k - 1);
      assert AnnotationsUpTo(line, lineno, occs, k) == prev + [a];
    }
  }

  /** The diagnostics one content line asks for, left to right. */
  function LineAnnotations(line: string, lineno: nat): seq<Annotation> {
    AnnotationsUpTo(line, lineno, Occurrences(line), |Occurrences(line)|)
  }

  /** Each diagnostic of a line describes one of its annotations, from left to right. */
  lemma LineAnnotationsSound(line: string, lineno: nat)
    ensures forall k :: 0 <= k < |LineAnnotations(line, lineno)| ==>
      Describes(line, lineno, LineAnnotations(line, lineno)[k])
    ensures forall k1, k2 :: 0 <= k1 < k2 < |LineAnnotations(line, lineno)| ==>
      LineAnnotations(line, lineno)[k1].offset < LineAnnotations(line, lineno)[k2].offset
  {
    var occs := Occurrences(line);
    var r := LineAnnotations(line, lineno);
    AnnotationsUpToIndex(line, lineno, occs, |occs|);
    forall k | 0 <= k < |r|
      ensures Describes(line, lineno, r[k])
    {
      AnnotationAtDescribes(line, lineno, occs, k);
    }
    assert Spaced(occs);
  }

  /** Some diagnostic of `anns` stems from the annotation at index `p` of line `lineno`. */
  ghost predicate Reports(anns: seq<Annotation>, lineno: nat, p: int) {
    exists k :: 0 <= k < |anns| && anns[k].lineno == lineno && anns[k].offset == p
  }

  lemma ReportsAppend(a: seq<Annotation>, b: seq<Annotation>, lineno: nat, p: int)
    requires Reports(a, lineno, p) || Reports(b, lineno, p)
    ensures Reports(a + b, lineno, p)
  {
    if Reports(a, lineno, p) {
      var k :| 0 <= k < |a| && a[k].lineno == lineno && a[k].offset == p;
      assert (a + b)[k] == a[k];
    } else {
      var k :| 0 <= k < |b| && b[k].lineno == lineno && b[k].offset == p;
      assert (a + b)[|a| + k] == b[k];
    }
  }

  /** Every annotation of the line yields a diagnostic. */
  lemma LineAnnotationsComplete(line: string, lineno: nat, p: int)
    requires IsCodeAt(line, p)
    ensures Reports(LineAnnotations(line, lineno), lineno, p)
  {
    var occs := Occurrences(line);
    AnnotationsUpToIndex(line, lineno, occs, |occs|);
    assert p in occs;
    var k :| 0 <= k < |occs| && occs[k] == p;
    assert LineAnnotations(line, lineno)[k].offset == p;
  }

  /** Every expected code is an upper-case letter, three digits and a space. */
  lemma CodeShape(line: string, lineno: nat, a: Annotation)
    requires Describes(line, lineno, a)
    ensures IsCodeGroup(a.code)
  {
  }

  /** Every message is trimmed and holds no further annotation. */
  lemma MessageShape(line: string, lineno: nat, a: Annotation)
    requires Describes(line, lineno, a)
    ensures Stripped(a.message)
    ensures forall j :: !IsCodeAt(a.message, j)
  {
    var p := a.offset;
    var e := NextCode(line, p + 1);
    var seg := line[p + 7..e];
    assert a.message == Strip(seg);
    assert forall q :: p + 7 <= q < e ==> !IsCodeAt(line, q);
    NoCodeInSlice(line, p + 7, e);
    StripNoCode(seg);
    StripIsTrimmedSlice(seg);
  }

  // ---------------------------------------------------------------- expected_output

  /** `f"{path}:{lineno}: {match.group(1)}{message}\n"` */
  function ExpectedLine(path: string, a: Annotation): string {
    path + ":" + Decimal(a.lineno) + ": " + a.code + a.message + "\n"
  }

  /** `expected_output`: the expected lines concatenated in order. */
  function ExpectedOutput(path: string, anns: seq<Annotation>): string
    decreases |anns|
  {
    if |anns| == 0 then "" else ExpectedOutput(path, anns[..|anns| - 1]) + ExpectedLine(path, anns[|anns| - 1])
  }

  lemma {:induction false} ExpectedOutputAppend(path: string, a: seq<Annotation>, b: seq<Annotation>)
    ensures ExpectedOutput(path, a + b) == ExpectedOutput(path, a) + ExpectedOutput(path, b)
    decreases |b|
  {
    if |b| > 0 {
      var b' := b[..|b| - 1];
      assert (a + b)[..|a + b| - 1] == a + b';
      ExpectedOutputAppend(path, a, b');
    } else {
      assert a + b == a;
    }
  }

  /** One more turn of the loop appends one line to the output. */
  lemma ExpectedOutputStep(path: string, line: string, lineno: nat, occs: seq<nat>, k: nat)
    requires k < |occs|
    ensures ExpectedOutput(path, AnnotationsUpTo(line, lineno, occs, k + 1))
      == ExpectedOutput(path, AnnotationsUpTo(line, lineno, occs, k)) + ExpectedLine(path, AnnotationAt(line, lineno, occs, k))
  {
    var prev := AnnotationsUpTo(line, lineno, occs, k);
    var a := AnnotationAt(line, lineno, occs, k);
    assert AnnotationsUpTo(line, lineno, occs, k + 1) == prev + [a];
    assert (prev + [a])[..|prev + [a]| - 1] == prev;
  }

  /** The inner `zip_longest` loop of lines 33-36 for one content line. */
  method LineExpectation(path: string, line: string, lineno: nat) returns (text: string)
    ensures text == ExpectedOutput(path, LineAnnotations(line, lineno))
  {
    var codes := Occurrences(line);
    text := "";
    var k := 0;
    while k < |codes|
      invariant 0 <= k <= |codes|
      invariant text == ExpectedOutput(path, AnnotationsUpTo(line, lineno, codes, k))
    {
      MatchFits(line, lineno, codes, k);
      var endPos := if k + 1 < |codes| then codes[k + 1] else |line|;
      var code := line[codes[k] + 2..codes[k] + 7];
      var message := Strip(line[codes[k] + 7..endPos]);
      var piece := ExpectedLine(path, Annotation(lineno, codes[k], code, message));
      assert Annotation(lineno, codes[k], code, message) == AnnotationAt(line, lineno, codes, k);
      ExpectedOutputStep(path, line, lineno, codes, k);
      text := text + piece;
      k := k + 1;
    }
  }
}

=== FILE: comparator.dfy ===
/** The verdict of one fixture's test (tests/test_pyi_files.py, lines 16-19 and
    54-57): skipped on an interpreter older than the fixture asks for;
    otherwise the analyzer's output from each of the two runs, with column
    numbers removed, must equal the expected output. The analyzer itself is not
    modelled: the text of its two runs is a parameter. */
module Comparator {
  import opened Text
  import opened VersionGate
  import opened Matches
  import opened Annotations
  import opened Fixture
  import opened Normalizer

  datatype Outcome = Skipped | Passed | Failed(actual: string, expected: string)

  /** The expected output of the fixture `lines` named `path`. */
  function Expected(path: string, lines: seq<string>): string {
    ExpectedOutput(path, Parse(lines).annotations)
  }

  /** The test of one fixture: the version gate, then the check of line 57
      for the run that reads the file and then for the run that reads stdin,
      stopping at the first mismatch. */
  function Evaluate(path: string, v: Version, lines: seq<string>, fileRun: string, stdinRun: string): (o: Outcome)
    ensures o.Skipped? <==> ShouldSkip(path, v)
    ensures o.Passed? <==>
      !ShouldSkip(path, v)
      && Normalize(fileRun) == Expected(path, lines)
      && Normalize(stdinRun) == Expected(path, lines)
    ensures o.Failed? ==>
      && o.expected == Expected(path, lines)
      && o.actual != o.expected
      && (o.actual == Normalize(fileRun) || (Normalize(fileRun) == o.expected && o.actual == Normalize(stdinRun)))
  {
    var expected := Expected(path, lines);
    if ShouldSkip(path, v) then Skipped
    else if Normalize(fileRun) != expected then Failed(Normalize(fileRun), expected)
    else if Normalize(stdinRun) != expected then Failed(Normalize(stdinRun), expected)
    else Passed
  }

  // ---------------------------------------------------------------- what the analyzer prints

  /** One report as the analyzer prints it, with a column: `path:L:C: CODE message`. */
  function ReportLine(path: string, a: Annotation, col: string): string {
    path + ":" + Decimal(a.lineno) + ":" + col + ": " + a.code + a.message + "\n"
  }

  /** The reports for `anns`, in order, the `k`-th with column `cols[k]`. */
  function Report(path: string, anns: seq<Annotation>, cols: seq<string>): string
    requires |cols| == |anns|
    decreases |anns|
  {
    if |anns| == 0 then ""
    else Report(path, anns[..|anns| - 1], cols[..|cols| - 1]) + ReportLine(path, anns[|anns| - 1], cols[|cols| - 1])
  }

  // ---------------------------------------------------------------- dropping the columns

  /** A match that ends inside `s` is a match of `s` alone. */
  lemma MatchInPrefix(s: string, t: string, i: int, len: int)
    ensures MatchesAt(s + t, i, len) && i + len <= |s| ==> MatchesAt(s, i, len)
  {
    if MatchesAt(s + t, i, len) && i + len <= |s| {
      assert (s + t)[i + 1..i + len - 2] == s[i + 1..i + len - 2];
    }
  }

  /** A final newline adds no match: a match ends in a space. */
  lemma NoMarkerNewline(m: string)
    requires NoMarker(m)
    ensures NoMarker(m + "\n")
  {
    forall i, len
      ensures !MatchesAt(m + "\n", i, len)
    {
      MatchInPrefix(m, "\n", i, len);
    }
  }

  /** What follows the column, `CODE message\n`, is left unchanged. */
  lemma TailUnchanged(code: string, message: string)
    requires ColonFree(code)
    requires NoMarker(message)
    ensures Normalize(code + message + "\n") == code + message + "\n"
  {
    NoMarkerNewline(message);
    NoMarkerUnchanged(message + "\n");
    ColonFreePrefix(code, message + "\n");
    assert code + message + "\n" == code + (message + "\n");
  }

  /** One report loses exactly its column. */
  lemma ReportLineNormalizes(path: string, a: Annotation, col: string)
    requires ColonFree(path) && ColonFree(a.code) && NoMarker(a.message)
    requires DigitString(col)
    ensures Normalize(ReportLine(path, a, col)) == ExpectedLine(path, a)
  {
    var tail := a.code + a.message + "\n";
    TailUnchanged(a.code, a.message);
    DropColumnFixed(path, Decimal(a.lineno), col, tail);
    ReportLineParts(path, a, col);
  }

  /** Both lines end with the same `CODE message\n`. */
  lemma ReportLineParts(path: string, a: Annotation, col: string)
    ensures ReportLine(path, a, col) == path + ":" + Decimal(a.lineno) + ":" + col + ": " + (a.code + a.message + "\n")
    ensures ExpectedLine(path, a) == path + ":" + Decimal(a.lineno) + ": " + (a.code + a.message + "\n")
  {
  }

  /** A match inside the message is a match of `CODE message\n`. */
  lemma MatchInTail(code: string, message: string, i: int, len: int)
    requires MatchesAt(message, i, len)
    ensures MatchesAt(code + message + "\n", |code| + i, len)
  {
    var t := code + message + "\n";
    assert t[|code| + i + 1..|code| + i + len - 2] == message[i + 1..i + len - 2];
  }

  /** The converse of `ReportLineNormalizes` for the message: when the
      message holds `:<digits>: `, the normaliser rewrites it too, so even a
      faithful report no longer equals its expected line. */
  lemma MarkedMessageBreaksReport(path: string, a: Annotation, col: string)
    requires ColonFree(path) && DigitString(col)
    requires !NoMarker(a.message)
    ensures Normalize(ReportLine(path, a, col)) != ExpectedLine(path, a)
  {
    var i, len :| MatchesAt(a.message, i, len);
    var tail := a.code + a.message + "\n";
    MatchInTail(a.code, a.message, i, len);
    MarkerShrinks(tail, |a.code| + i, len);
    DropColumnRest(path, Decimal(a.lineno), col, tail);
    ReportLineParts(path, a, col);
  }

  /** Reports end with a newline, so they normalise one by one. */
  lemma ReportEnds(path: string, anns: seq<Annotation>, cols: seq<string>)
    requires |cols| == |anns|
    ensures |Report(path, anns, cols)| == 0 || Report(path, anns, cols)[|Report(path, anns, cols)| - 1] == '\n'
  {
  }

  /** Reports of the expected diagnostics, with any columns, normalise to the
      expected output, provided the path and the codes have no `:` and no
      message holds `:<digits>: `. */
  lemma {:induction false} ReportNormalizes(path: string, anns: seq<Annotation>, cols: seq<string>)
    requires |cols| == |anns|
    requires ColonFree(path)
    requires forall k :: 0 <= k < |anns| ==> ColonFree(anns[k].code) && NoMarker(anns[k].message)
    requires forall k :: 0 <= k < |cols| ==> DigitString(cols[k])
    ensures Normalize(Report(path, anns, cols)) == ExpectedOutput(path, anns)
    decreases |anns|
  {
    if |anns| > 0 {
      var n := |anns|;
      var init, cinit := anns[..n - 1], cols[..n - 1];
      ReportNormalizes(path, init, cinit);
      ReportEnds(path, init, cinit);
      SeparatedConcat(Report(path, init, cinit), ReportLine(path, anns[n - 1], cols[n - 1]));
      ReportLineNormalizes(path, anns[n - 1], cols[n - 1]);
    }
  }

  /** Every parsed code is an upper-case letter, three digits and a space: no `:`. */
  lemma ParsedCodesColonFree(lines: seq<string>)
    ensures forall k :: 0 <= k < |Parse(lines).annotations| ==> ColonFree(Parse(lines).annotations[k].code)
  {
    var anns := Parse(lines).annotations;
    ParseSound(lines);
    forall k | 0 <= k < |anns|
      ensures ColonFree(anns[k].code)
    {
      var a := anns[k];
      CodeShape(lines[a.lineno - 1], a.lineno, a);
    }
  }

  /** The check of line 57 passes when the analyzer reports exactly the
      annotated diagnostics, in order, with any column numbers, on both runs. */
  lemma PassesOnFaithfulReports(path: string, v: Version, lines: seq<string>, cols1: seq<string>, cols2: seq<string>)
    requires !ShouldSkip(path, v)
    requires ColonFree(path)
    requires forall k :: 0 <= k < |Parse(lines).annotations| ==> NoMarker(Parse(lines).annotations[k].message)
    requires |cols1| == |cols2| == |Parse(lines).annotations|
    requires forall k :: 0 <= k < |cols1| ==> DigitString(cols1[k])
    requires forall k :: 0 <= k < |cols2| ==> DigitString(cols2[k])
    ensures Evaluate(path, v, lines,
      Report(path, Parse(lines).annotations, cols1), Report(path, Parse(lines).annotations, cols2)) == Passed
  {
    var anns := Parse(lines).annotations;
    ParsedCodesColonFree(lines);
    ReportNormalizes(path, anns, cols1);
    ReportNormalizes(path, anns, cols2);
  }
}

=== FILE: fixture.dfy ===
/** The expectation a fixture carries (tests/test_pyi_files.py, lines 24-36).
    A line starting with `# flags: ` adds its tokens after the first two to the
    flags; any other line starting with `#` is a comment; every remaining line
    contributes the diagnostics its annotations ask for. The fixture text
    arrives already split into lines. */
module Fixture {
  import opened Text
  import opened Matches
  import opened Annotations

  const FlagsMarker: string := "# flags: "

  datatype LineKind = Directive | Comment | Content

  /** The two `startswith` tests of the loop, in their order. */
  function Classify(line: string): LineKind {
    if StartsWith(line, FlagsMarker) then Directive
    else if StartsWith(line, "#") then Comment
    else Content
  }

  // ---------------------------------------------------------------- the whole fixture

  datatype Expectation = Expectation(flags: seq<string>, annotations: seq<Annotation>)

  /** `line.split()[2:]`; Python's slice is empty when there are fewer tokens. */
  function DirectiveFlags(line: string): seq<string> {
    var tokens := Split(line);
    if |tokens| <= 2 then [] else tokens[2..]
  }

  /** The loop over `file_contents.splitlines()`, line numbers counted from 1. */
  function Parse(lines: seq<string>): Expectation
    decreases |lines|
  {
    if |lines| == 0 then Expectation([], [])
    else
      var prev := Parse(lines[..|lines| - 1]);
      var line := lines[|lines| - 1];
      match Classify(line)
      case Directive => Expectation(prev.flags + DirectiveFlags(line), prev.annotations)
      case Comment => prev
      case Content => Expectation(prev.flags, prev.annotations + LineAnnotations(line, |lines|))
  }

  /** The marker itself splits into the two words `#` and `flags:`. */
  lemma SplitMarker(line: string)
    requires StartsWith(line, FlagsMarker)
    ensures Split(line) == ["#", "flags:"] + Split(line[|FlagsMarker|..])
  {
    var w1, w2 := "#", "flags:";
    assert line[..9] == FlagsMarker;
    var tail := line[2..];
    assert line == w1 + " " + tail;
    assert tail == w2 + " " + line[9..];
    assert IsWord(w1);
    assert IsWord(w2);
    SplitWordSpace(w1, tail);
    SplitWordSpace(w2, line[9..]);
  }

  /** The two tokens dropped from a directive line are the marker's own words:
      the flags are the whitespace-separated words after the marker. */
  lemma DirectiveFlagsAfterMarker(line: string)
    requires Classify(line) == Directive
    ensures DirectiveFlags(line) == Split(line[|FlagsMarker|..])
  {
    SplitMarker(line);
  }

  /** Concatenation of a sequence of sequences. */
  function Concat<T>(ss: seq<seq<T>>): seq<T>
    decreases |ss|
  {
    if |ss| == 0 then [] else Concat(ss[..|ss| - 1]) + ss[|ss| - 1]
  }

  /** What one line contributes to the flags, stated independently of the loop. */
  function LineFlags(line: string): seq<string> {
    if Classify(line) == Directive then Split(line[|FlagsMarker|..]) else []
  }

  function PerLineFlags(lines: seq<string>): (r: seq<seq<string>>)
    ensures |r| == |lines|
  {
    seq(|lines|, i requires 0 <= i < |lines| => LineFlags(lines[i]))
  }

  /** The flags are the words after the marker of every directive line, in
      line order, accumulated across directive lines; no other line adds any. */
  lemma {:induction false} ParseFlags(lines: seq<string>)
    ensures Parse(lines).flags == Concat(PerLineFlags(lines))
    decreases |lines|
  {
    if |lines| > 0 {
      var init := lines[..|lines| - 1];
      var line := lines[|lines| - 1];
      ParseFlags(init);
      assert PerLineFlags(lines)[..|lines| - 1] == PerLineFlags(init);
      if Classify(line) == Directive {
        DirectiveFlagsAfterMarker(line);
      }
    }
  }

  /** Annotation `a` orders strictly before annotation `b`: an earlier line, or
      further left on the same line. */
  predicate Before(a: Annotation, b: Annotation) {
    a.lineno < b.lineno || (a.lineno == b.lineno && a.offset < b.offset)
  }

  /** Every expected diagnostic comes from an annotation on a content line
      (never from a directive or comment line) and reports that line's number. */
  ghost predicate Sound(lines: seq<string>, anns: seq<Annotation>) {
    forall k :: 0 <= k < |anns| ==>
      && 1 <= anns[k].lineno <= |lines|
      && Classify(lines[anns[k].lineno - 1]) == Content
      && Describes(lines[anns[k].lineno - 1], anns[k].lineno, anns[k])
  }

  /** Every expected diagnostic sits at an annotation of a content line. */
  ghost predicate Located(lines: seq<string>, anns: seq<Annotation>) {
    forall k :: 0 <= k < |anns| ==>
      && 1 <= anns[k].lineno <= |lines|
      && Classify(lines[anns[k].lineno - 1]) == Content
      && IsCodeAt(lines[anns[k].lineno - 1], anns[k].offset)
  }

  lemma SoundLocated(lines: seq<string>, anns: seq<Annotation>)
    requires Sound(lines, anns)
    ensures Located(lines, anns)
  {
  }

  /** Diagnostics follow line order, then left-to-right order within a line. */
  ghost predicate Ordered(anns: seq<Annotation>) {
    forall k1, k2 :: 0 <= k1 < k2 < |anns| ==> Before(anns[k1], anns[k2])
  }

  /** Every annotation on a content line yields a diagnostic. */
  ghost predicate Complete(lines: seq<string>, anns: seq<Annotation>) {
    forall i, p :: 0 <= i < |lines| && Classify(lines[i]) == Content && IsCodeAt(lines[i], p) ==>
      Reports(anns, i + 1, p)
  }

  /** A content line's own diagnostics are appended after those of the lines before it. */
  lemma ParseStep(lines: seq<string>)
    requires |lines| > 0
    ensures Parse(lines).annotations ==
      Parse(lines[..|lines| - 1]).annotations
      + (if Classify(lines[|lines| - 1]) == Content then LineAnnotations(lines[|lines| - 1], |lines|) else [])
  {
  }

  lemma SoundExtend(init: seq<string>, lines: seq<string>, anns: seq<Annotation>)
    requires |init| <= |lines| && lines[..|init|] == init
    requires Sound(init, anns)
    ensures Sound(lines, anns)
  {
    forall k | 0 <= k < |anns|
      ensures 1 <= anns[k].lineno <= |lines|
      ensures Classify(lines[anns[k].lineno - 1]) == Content
      ensures Describes(lines[anns[k].lineno - 1], anns[k].lineno, anns[k])
    {
      assert init[anns[k].lineno - 1] == lines[anns[k].lineno - 1];
    }
  }

  lemma SoundAppend(lines: seq<string>, a: seq<Annotation>, b: seq<Annotation>)
    requires Sound(lines, a) && Sound(lines, b)
    ensures Sound(lines, a + b)
  {
    forall k | 0 <= k < |a + b|
      ensures 1 <= (a + b)[k].lineno <= |lines|
      ensures Classify(lines[(a + b)[k].lineno - 1]) == Content
      ensures Describes(lines[(a + b)[k].lineno - 1], (a + b)[k].lineno, (a + b)[k])
    {
      if k < |a| { assert (a + b)[k] == a[k]; } else { assert (a + b)[k] == b[k - |a|]; }
    }
  }

  lemma SoundLast(lines: seq<string>)
    requires |lines| > 0 && Classify(lines[|lines| - 1]) == Content
    ensures Sound(lines, LineAnnotations(lines[|lines| - 1], |lines|))
  {
    LineAnnotationsSound(lines[|lines| - 1], |lines|);
  }

  /** Every expected diagnostic comes from an annotation on a content line. */
  lemma {:induction false} ParseSound(lines: seq<string>)
    ensures Sound(lines, Parse(lines).annotations)
    decreases |lines|
  {
    if |lines| > 0 {
      var n := |lines|;
      var init := lines[..n - 1];
      ParseSound(init);
      ParseStep(lines);
      SoundExtend(init, lines, Parse(init).annotations);
      if Classify(lines[n - 1]) == Content {
        SoundLast(lines);
        SoundAppend(lines, Parse(init).annotations, LineAnnotations(lines[n - 1], n));
      }
    }
  }

  /** Diagnostics of earlier lines never report a later line number. */
  lemma LinenoBound(lines: seq<string>)
    ensures forall k :: 0 <= k < |Parse(lines).annotations| ==> Parse(lines).annotations[k].lineno <= |lines|
  {
    ParseSound(lines);
  }

  /** A directive or comment line yields no diagnostic, whatever annotations it holds. */
  lemma MarkedLinesSilent(lines: seq<string>, i: nat)
    requires i < |lines| && Classify(lines[i]) != Content
    ensures forall k :: 0 <= k < |Parse(lines).annotations| ==> Parse(lines).annotations[k].lineno != i + 1
  {
    ParseSound(lines);
  }

  /** Diagnostics follow line order, then left-to-right order within a line. */
  lemma {:induction false} ParseOrdered(lines: seq<string>)
    ensures Ordered(Parse(lines).annotations)
    decreases |lines|
  {
    if |lines| > 0 {
      var n := |lines|;
      var init := lines[..n - 1];
      var line := lines[n - 1];
      ParseOrdered(init);
      ParseStep(lines);
      LinenoBound(init);
      var prev := Parse(init).annotations;
      var anns := Parse(lines).annotations;
      if Classify(line) == Content {
        var own := LineAnnotations(line, n);
        LineAnnotationsSound(line, n);
        forall k1, k2 | 0 <= k1 < k2 < |anns|
          ensures Before(anns[k1], anns[k2])
        {
          if k2 < |prev| {
            assert anns[k1] == prev[k1] && anns[k2] == prev[k2];
          } else if k1 < |prev| {
            assert anns[k1] == prev[k1] && anns[k2] == own[k2 - |prev|];
          } else {
            assert anns[k1] == own[k1 - |prev|] && anns[k2] == own[k2 - |prev|];
          }
        }
      }
    }
  }

  /** Every annotation on a content line yields a diagnostic. */
  lemma {:induction false} ParseComplete(lines: seq<string>)
    ensures Complete(lines, Parse(lines).annotations)
    decreases |lines|
  {
    if |lines| > 0 {
      var n := |lines|;
      var init := lines[..n - 1];
      var line := lines[n - 1];
      ParseComplete(init);
      ParseStep(lines);
      var prev := Parse(init).annotations;
      var own := if Classify(line) == Content then LineAnnotations(line, n) else [];
      forall i, p | 0 <= i < n && Classify(lines[i]) == Content && IsCodeAt(lines[i], p)
        ensures Reports(prev + own, i + 1, p)
      {
        if i < n - 1 {
          assert init[i] == lines[i];
        } else {
          LineAnnotationsComplete(line, n, p);
        }
        ReportsAppend(prev, own, i + 1, p);
      }
    }
  }

  /** Every position of a content line where an annotation starts, as
      (line number, index of its `#`). */
  ghost function CodePositions(lines: seq<string>): set<(nat, nat)> {
    set i: nat, p: nat | i < |lines| && p < |lines[i]| && Classify(lines[i]) == Content && IsCodeAt(lines[i], p)
      :: (i + 1, p)
  }

  function Positions(anns: seq<Annotation>): (r: seq<(nat, nat)>)
    ensures |r| == |anns|
  {
    seq(|anns|, k requires 0 <= k < |anns| => (anns[k].lineno, anns[k].offset))
  }

  lemma {:induction false} DistinctCardinality<T>(s: seq<T>)
    requires forall k1, k2 :: 0 <= k1 < k2 < |s| ==> s[k1] != s[k2]
    ensures |set x | x in s| == |s|
    decreases |s|
  {
    if |s| > 0 {
      var init := s[..|s| - 1];
      DistinctCardinality(init);
      assert (set x | x in s) == (set x | x in init) + {s[|s| - 1]};
    }
  }

  lemma PositionsDistinct(anns: seq<Annotation>)
    requires Ordered(anns)
    ensures forall k1, k2 :: 0 <= k1 < k2 < |Positions(anns)| ==> Positions(anns)[k1] != Positions(anns)[k2]
  {
    var ps := Positions(anns);
    forall k1, k2 | 0 <= k1 < k2 < |ps|
      ensures ps[k1] != ps[k2]
    {
      assert Before(anns[k1], anns[k2]);
    }
  }

  lemma PositionsSound(lines: seq<string>, anns: seq<Annotation>)
    requires Located(lines, anns)
    ensures forall x :: x in Positions(anns) ==> x in CodePositions(lines)
  {
    var ps := Positions(anns);
    forall x | x in ps
      ensures x in CodePositions(lines)
    {
      var k :| 0 <= k < |ps| && ps[k] == x;
      var a := anns[k];
      var i: nat, p: nat := a.lineno - 1, a.offset;
      assert IsCodeAt(lines[i], p);
      assert x == (i + 1, p);
    }
  }

  lemma PositionsComplete(lines: seq<string>, anns: seq<Annotation>)
    requires Complete(lines, anns)
    ensures forall x :: x in CodePositions(lines) ==> x in Positions(anns)
  {
    var ps := Positions(anns);
    forall x | x in CodePositions(lines)
      ensures x in ps
    {
      var i: nat, p: nat :| i < |lines| && p < |lines[i]| && Classify(lines[i]) == Content
        && IsCodeAt(lines[i], p) && x == (i + 1, p);
      var k :| 0 <= k < |anns| && anns[k].lineno == i + 1 && anns[k].offset == p;
      assert ps[k] == x;
    }
  }

  /** There are exactly as many expected diagnostics as annotations on content lines. */
  lemma CountIsCodePositions(lines: seq<string>)
    ensures |Parse(lines).annotations| == |CodePositions(lines)|
  {
    var anns := Parse(lines).annotations;
    ParseSound(lines);
    ParseOrdered(lines);
    ParseComplete(lines);
    PositionsDistinct(anns);
    SoundLocated(lines, anns);
    PositionsSound(lines, anns);
    PositionsComplete(lines, anns);
    var ps := Positions(anns);
    DistinctCardinality(ps);
    assert (set x | x in ps) == CodePositions(lines);
  }

  /** The loop of lines 24-36 as written, building the flags and the expected
      output incrementally. */
  method BuildExpectation(path: string, lines: seq<string>) returns (flags: seq<string>, expected: string)
    ensures flags == Parse(lines).flags
    ensures expected == ExpectedOutput(path, Parse(lines).annotations)
  {
    flags := [];
    expected := "";
    var i := 0;
    while i < |lines|
      invariant 0 <= i <= |lines|
      invariant flags == Parse(lines[..i]).flags
      invariant expected == ExpectedOutput(path, Parse(lines[..i]).annotations)
    {
      var line := lines[i];
      assert lines[..i + 1][..i] == lines[..i];
      if StartsWith(line, FlagsMarker) {
        flags := flags + DirectiveFlags(line);
      } else if StartsWith(line, "#") {
      } else {
        var text := LineExpectation(path, line, i + 1);
        ExpectedOutputAppend(path, Parse(lines[..i]).annotations, LineAnnotations(line, i + 1));
        expected := expected + text;
      }
      i := i + 1;
    }
    assert lines[..|lines|] == lines;
  }
}

=== FILE: fixture_examples.dfy ===
/** Lines with one or two annotations, worked through the parser of
    tests/test_pyi_files.py, lines 31-36, and the examples they cover. */
module FixtureExamples {
  import opened Text
  import opened Matches
  import opened Annotations

  /** `s` holds no `#`, so no annotation starts inside it. */
  predicate NoHash(s: string) {
    forall i :: 0 <= i < |s| ==> s[i] != '#'
  }

  /** Every annotation of `line` starts at `p` or at `q`. */
  ghost predicate OnlyAnnotationsAt(line: string, p: int, q: int) {
    forall j :: IsCodeAt(line, j) ==> j == p || j == q
  }

  /** A line whose only annotation starts at `|pre|` has that one match. */
  lemma SingleMatch(pre: string, code: string, msg: string)
    requires IsCodeGroup(code)
    requires OnlyAnnotationsAt(pre + "# " + code + msg, |pre|, |pre|)
    ensures Occurrences(pre + "# " + code + msg) == [|pre|]
  {
    var line := pre + "# " + code + msg;
    var p := |pre|;
    assert line[p..p + 7] == "# " + code;
    assert IsCodeAt(line, p);
    ScanUnique(line, 0, [p]);
  }

  /** Text around the annotation without any `#` holds no other annotation. */
  lemma HashFreeSingle(pre: string, code: string, msg: string)
    requires NoHash(pre) && NoHash(msg) && IsCodeGroup(code)
    ensures OnlyAnnotationsAt(pre + "# " + code + msg, |pre|, |pre|)
  {
    var line := pre + "# " + code + msg;
    var p := |pre|;
    forall j | 0 <= j < |line| && j != p
      ensures line[j] != '#'
    {
      if j < p { assert line[j] == pre[j]; }
      else if j < p + 7 { assert line[j] == ("# " + code)[j - p]; }
      else { assert line[j] == msg[j - p - 7]; }
    }
  }

  /** A line with one annotation yields one diagnostic: its code, and the rest
      of the line, stripped, as the message, whatever other `#` it holds. */
  lemma OneAnnotation(pre: string, code: string, msg: string, lineno: nat)
    requires IsCodeGroup(code)
    requires OnlyAnnotationsAt(pre + "# " + code + msg, |pre|, |pre|)
    ensures LineAnnotations(pre + "# " + code + msg, lineno) == [Annotation(lineno, |pre|, code, Strip(msg))]
  {
    var line := pre + "# " + code + msg;
    var p := |pre|;
    SingleMatch(pre, code, msg);
    MatchFits(line, lineno, [p], 0);
    assert line[p + 2..p + 7] == code;
    assert line[p + 7..|line|] == msg;
    assert AnnotationsUpTo(line, lineno, [p], 1) == [AnnotationAt(line, lineno, [p], 0)];
  }

  /** An annotation that ends its line has an empty message: its expected line
      ends with the code group's own trailing space and the newline. */
  lemma EmptyMessage(path: string, pre: string, code: string, lineno: nat)
    requires IsCodeGroup(code)
    requires OnlyAnnotationsAt(pre + "# " + code, |pre|, |pre|)
    ensures ExpectedOutput(path, LineAnnotations(pre + "# " + code, lineno)) == path + ":" + Decimal(lineno) + ": " + code + "\n"
  {
    assert pre + "# " + code + "" == pre + "# " + code;
    OneAnnotation(pre, code, "", lineno);
    var a := Annotation(lineno, |pre|, code, "");
    assert ExpectedOutput(path, [a]) == ExpectedOutput(path, []) + ExpectedLine(path, a);
  }

  /** A line whose only annotations start at `|pre|` and right after `m1` has those two matches. */
  lemma DoubleMatch(pre: string, c1: string, m1: string, c2: string, m2: string)
    requires IsCodeGroup(c1) && IsCodeGroup(c2)
    requires OnlyAnnotationsAt(pre + "# " + c1 + m1 + "# " + c2 + m2, |pre|, |pre| + 7 + |m1|)
    ensures Occurrences(pre + "# " + c1 + m1 + "# " + c2 + m2) == [|pre|, |pre| + 7 + |m1|]
  {
    var line := pre + "# " + c1 + m1 + "# " + c2 + m2;
    var p, q := |pre|, |pre| + 7 + |m1|;
    assert line[p..p + 7] == "# " + c1;
    assert line[q..q + 7] == "# " + c2;
    assert IsCodeAt(line, p) && IsCodeAt(line, q);
    ScanUnique(line, 0, [p, q]);
  }

  /** Text around and between two annotations without any `#` holds no other annotation. */
  lemma HashFreeDouble(pre: string, c1: string, m1: string, c2: string, m2: string)
    requires NoHash(pre) && NoHash(m1) && NoHash(m2) && IsCodeGroup(c1) && IsCodeGroup(c2)
    ensures OnlyAnnotationsAt(pre + "# " + c1 + m1 + "# " + c2 + m2, |pre|, |pre| + 7 + |m1|)
  {
    var line := pre + "# " + c1 + m1 + "# " + c2 + m2;
    var p, q := |pre|, |pre| + 7 + |m1|;
    forall j | 0 <= j < |line| && j != p && j != q
      ensures line[j] != '#'
    {
      if j < p { assert line[j] == pre[j]; }
      else if j < p + 7 { assert line[j] == ("# " + c1)[j - p]; }
      else if j < q { assert line[j] == m1[j - p - 7]; }
      else if j < q + 7 { assert line[j] == ("# " + c2)[j - q]; }
      else { assert line[j] == m2[j - q - 7]; }
    }
  }

  /** A `#` in the first message that is not followed by a space starts no
      annotation: the only matches are still the two annotations. */
  lemma StrayHashDouble(pre: string, c1: string, a: string, b: string, c2: string, m2: string)
    requires NoHash(pre) && NoHash(a) && NoHash(b) && NoHash(m2) && IsCodeGroup(c1) && IsCodeGroup(c2)
    requires |b| > 0 && b[0] != ' '
    ensures OnlyAnnotationsAt(pre + "# " + c1 + (a + "#" + b) + "# " + c2 + m2, |pre|, |pre| + 7 + |a + "#" + b|)
  {
    var m1 := a + "#" + b;
    var line := pre + "# " + c1 + m1 + "# " + c2 + m2;
    var p, h, q := |pre|, |pre| + 7 + |a|, |pre| + 7 + |m1|;
    assert line[h + 1] == b[0];
    forall j | 0 <= j < |line| && j != p && j != h && j != q
      ensures line[j] != '#'
    {
      if j < p { assert line[j] == pre[j]; }
      else if j < p + 7 { assert line[j] == ("# " + c1)[j - p]; }
      else if j < h { assert line[j] == a[j - p - 7]; }
      else if j < q { assert line[j] == b[j - h - 1]; }
      else if j < q + 7 { assert line[j] == ("# " + c2)[j - q]; }
      else { assert line[j] == m2[j - q - 7]; }
    }
  }

  lemma LineAnnotationsOf(line: string, lineno: nat, occs: seq<nat>)
    requires Occurrences(line) == occs
    ensures LineAnnotations(line, lineno) == AnnotationsUpTo(line, lineno, occs, |occs|)
  {
  }

  lemma UpToTwo(line: string, lineno: nat, p: nat, q: nat)
    requires p + 7 <= q && q + 7 <= |line|
    ensures AnnotationsUpTo(line, lineno, [p, q], 2) ==
      [ Annotation(lineno, p, line[p + 2..p + 7], Strip(line[p + 7..q])),
        Annotation(lineno, q, line[q + 2..q + 7], Strip(line[q + 7..|line|])) ]
  {
    assert AnnotationsUpTo(line, lineno, [p, q], 1) == [AnnotationAt(line, lineno, [p, q], 0)];
  }

  lemma TwoSlices(pre: string, c1: string, m1: string, c2: string, m2: string)
    requires |c1| == 5 && |c2| == 5
    ensures var line, p, q := pre + "# " + c1 + m1 + "# " + c2 + m2, |pre|, |pre| + 7 + |m1|;
      && line[p + 2..p + 7] == c1
      && line[p + 7..q] == m1
      && line[q + 2..q + 7] == c2
      && line[q + 7..|line|] == m2
  {
    var line, p, q := pre + "# " + c1 + m1 + "# " + c2 + m2, |pre|, |pre| + 7 + |m1|;
    assert line[p + 2..p + 7] == c1;
    assert line[p + 7..q] == m1;
    assert line[q + 2..q + 7] == c2;
    assert line[q + 7..|line|] == m2;
  }

  /** Each message runs to the next annotation: the first stops where the
      second starts, the second runs to the end of the line. */
  lemma TwoAnnotations(pre: string, c1: string, m1: string, c2: string, m2: string, lineno: nat)
    requires IsCodeGroup(c1) && IsCodeGroup(c2)
    requires OnlyAnnotationsAt(pre + "# " + c1 + m1 + "# " + c2 + m2, |pre|, |pre| + 7 + |m1|)
    ensures LineAnnotations(pre + "# " + c1 + m1 + "# " + c2 + m2, lineno)
      == [Annotation(lineno, |pre|, c1, Strip(m1)), Annotation(lineno, |pre| + 7 + |m1|, c2, Strip(m2))]
  {
    var line := pre + "# " + c1 + m1 + "# " + c2 + m2;
    var p, q := |pre|, |pre| + 7 + |m1|;
    DoubleMatch(pre, c1, m1, c2, m2);
    LineAnnotationsOf(line, lineno, [p, q]);
    TwoSlices(pre, c1, m1, c2, m2);
    UpToTwo(line, lineno, p, q);
  }

  lemma DecimalFive()
    ensures Decimal(5) == "5"
  {
  }

  lemma UnusedVariableLine()
    ensures ExpectedLine("p", Annotation(5, 7, "E001 ", "unused variable")) == "p:5: E001 unused variable\n"
  {
    DecimalFive();
    assert "p" + ":" + "5" + ": " + "E001 " + "unused variable" + "\n" == "p:5: E001 unused variable\n";
  }

  lemma ExpectedOutputSingle(path: string, a: Annotation)
    ensures ExpectedOutput(path, [a]) == ExpectedLine(path, a)
  {
    assert [a][..0] == [];
  }

  lemma UnusedVariableParts()
    ensures "x = 1  # E001 unused variable" == "x = 1  " + "# " + "E001 " + "unused variable"
    ensures NoHash("x = 1  ") && NoHash("unused variable") && IsCodeGroup("E001 ")
    ensures Strip("unused variable") == "unused variable"
  {
  }

  /** `x = 1  # E001 unused variable` on line 5 of fixture `p`.
      `line` is a parameter pinned by the requires so that the verifier does
      not unfold the literal; the `…Parts` lemma splits it once. */
  lemma UnusedVariableExample(line: string)
    requires line == "x = 1  # E001 unused variable"
    ensures ExpectedOutput("p", LineAnnotations(line, 5)) == "p:5: E001 unused variable\n"
  {
    UnusedVariableParts();
    HashFreeSingle("x = 1  ", "E001 ", "unused variable");
    OneAnnotation("x = 1  ", "E001 ", "unused variable", 5);
    ExpectedOutputSingle("p", Annotation(5, 7, "E001 ", "unused variable"));
    UnusedVariableLine();
  }

  lemma BadTypeParts()
    ensures "y  # E002 bad type # E003 bad default" == "y  " + "# " + "E002 " + "bad type " + "# " + "E003 " + "bad default"
    ensures NoHash("y  ") && NoHash("bad type ") && NoHash("bad default")
    ensures IsCodeGroup("E002 ") && IsCodeGroup("E003 ")
    ensures Strip("bad type ") == "bad type" && Strip("bad default") == "bad default"
  {
  }

  /** `y  # E002 bad type # E003 bad default`: two diagnostics, the first
      message cut where the second annotation starts.
      `line` is a parameter pinned by the requires so that the verifier does
      not unfold the literal; the `…Parts` lemma splits it once. */
  lemma BadTypeExample(line: string, lineno: nat)
    requires line == "y  # E002 bad type # E003 bad default"
    ensures LineAnnotations(line, lineno)
      == [Annotation(lineno, 3, "E002 ", "bad type"), Annotation(lineno, 19, "E003 ", "bad default")]
  {
    BadTypeParts();
    HashFreeDouble("y  ", "E002 ", "bad type ", "E003 ", "bad default");
    TwoAnnotations("y  ", "E002 ", "bad type ", "E003 ", "bad default", lineno);
  }

  lemma SeeIssueParts()
    ensures "see " + "#" + "12 " == "see #12 "
    ensures "x  # E001 see #12 # E002 y" == "x  " + "# " + "E001 " + "see #12 " + "# " + "E002 " + "y"
    ensures NoHash("x  ") && NoHash("see ") && NoHash("12 ") && NoHash("y")
    ensures IsCodeGroup("E001 ") && IsCodeGroup("E002 ")
    ensures Strip("see #12 ") == "see #12" && Strip("y") == "y"
  {
  }

  /** `x  # E001 see #12 # E002 y`: the `#` of `#12` starts no annotation, so
      the first message runs on to the second annotation.
      `line` is a parameter pinned by the requires so that the verifier does
      not unfold the literal; the `…Parts` lemma splits it once. */
  lemma SeeIssueExample(line: string, lineno: nat)
    requires line == "x  # E001 see #12 # E002 y"
    ensures LineAnnotations(line, lineno)
      == [Annotation(lineno, 3, "E001 ", "see #12"), Annotation(lineno, 18, "E002 ", "y")]
  {
    SeeIssueParts();
    StrayHashDouble("x  ", "E001 ", "see ", "12 ", "E002 ", "y");
    TwoAnnotations("x  ", "E001 ", "see #12 ", "E002 ", "y", lineno);
  }
}

=== FILE: matches.dfy ===
/** The annotation regex `# ([A-Z]\d\d\d )` on one line of a fixture
    (tests/test_pyi_files.py, lines 31-35): where it matches, where each
    match's message ends, and what one turn of the `zip_longest` loop takes
    from a match. */
module Matches {
  import opened Text

  /** The regex `# ([A-Z]\d\d\d )` matches at index `i` of `line`. */
  predicate IsCodeAt(line: string, i: int) {
    && 0 <= i && i + 7 <= |line|
    && line[i] == '#'
    && line[i + 1] == ' '
    && IsUpper(line[i + 2])
    && IsDigit(line[i + 3])
    && IsDigit(line[i + 4])
    && IsDigit(line[i + 5])
    && line[i + 6] == ' '
  }

  /** The regex group `([A-Z]\d\d\d )`: an upper-case letter, three digits and a space. */
  predicate IsCodeGroup(c: string) {
    |c| == 5 && IsUpper(c[0]) && IsDigit(c[1]) && IsDigit(c[2]) && IsDigit(c[3]) && c[4] == ' '
  }

  /** Ascending positions, each at least a whole match (7 characters) after the previous one. */
  predicate Spaced(ps: seq<nat>) {
    forall k1, k2 :: 0 <= k1 < k2 < |ps| ==> ps[k1] + 7 <= ps[k2]
  }

  /** `re.finditer` from index `from`: try a match at each index in turn and,
      after a match, resume where it ended. No match can start inside another
      (a match holds a single `#`), so this finds every position where
      `IsCodeAt` holds. */
  function Scan(line: string, from: nat): (r: seq<nat>)
    requires from <= |line|
    decreases |line| - from
    ensures Spaced(r)
    ensures forall k :: 0 <= k < |r| ==> from <= r[k] && IsCodeAt(line, r[k])
    ensures forall j :: from <= j && IsCodeAt(line, j) ==> j in r
  {
    if from + 7 > |line| then []
    else if IsCodeAt(line, from) then [from] + Scan(line, from + 7)
    else Scan(line, from + 1)
  }

  /** The matches of `line` at or after `from`, ascending and spaced: what
      `Scan` is required to find. */
  ghost predicate AllMatchesFrom(line: string, from: nat, r: seq<nat>) {
    && Spaced(r)
    && (forall k :: 0 <= k < |r| ==> from <= r[k] && IsCodeAt(line, r[k]))
    && (forall j :: from <= j && IsCodeAt(line, j) ==> j in r)
  }

  lemma MatchesFromFirst(line: string, from: nat, r: seq<nat>)
    requires AllMatchesFrom(line, from, r) && IsCodeAt(line, from)
    ensures |r| > 0 && r[0] == from && AllMatchesFrom(line, from + 7, r[1..])
  {
    var k :| 0 <= k < |r| && r[k] == from;
    assert r[0] <= r[k] by { assert Spaced(r); }
    forall j | from + 7 <= j && IsCodeAt(line, j)
      ensures j in r[1..]
    {
      var i :| 0 <= i < |r| && r[i] == j;
      assert r[1..][i - 1] == j;
    }
  }

  lemma MatchesFromSkip(line: string, from: nat, r: seq<nat>)
    requires AllMatchesFrom(line, from, r) && !IsCodeAt(line, from)
    ensures AllMatchesFrom(line, from + 1, r)
  {
  }

  /** The first position of `r`, or 0 when there is none. */
  function Earliest(r: seq<nat>): nat {
    if |r| > 0 then r[0] else 0
  }

  lemma MatchesFromEnd(line: string, from: nat, r: seq<nat>)
    requires AllMatchesFrom(line, from, r) && from + 7 > |line|
    ensures r == []
  {
    // Mentions `r[0]` when `r` is non-empty, so the requires can rule that case out.
    var first := Earliest(r);
  }

  /** `Scan` is the only ascending, spaced list of the matches at or after
      `from`: any such list is what the scan finds. */
  lemma {:induction false} ScanUnique(line: string, from: nat, r: seq<nat>)
    requires from <= |line|
    requires AllMatchesFrom(line, from, r)
    ensures Scan(line, from) == r
    decreases |line| - from
  {
    if from + 7 > |line| {
      MatchesFromEnd(line, from, r);
    } else if IsCodeAt(line, from) {
      MatchesFromFirst(line, from, r);
      ScanUnique(line, from + 7, r[1..]);
      assert r == [from] + r[1..];
    } else {
      MatchesFromSkip(line, from, r);
      ScanUnique(line, from + 1, r);
    }
  }

  /** The start of every match of `re.finditer(r"# ([A-Z]\d\d\d )", line)`. */
  function Occurrences(line: string): seq<nat> {
    Scan(line, 0)
  }

  /** One expected diagnostic: where its annotation sits (`offset` is the index
      of its `#`, kept only to state the order) and what it prints. `code`
      keeps the regex group's trailing space. */
  datatype Annotation = Annotation(lineno: nat, offset: nat, code: string, message: string)

  /** `re.search` from index `from`: the first index at or after `from` where an
      annotation starts, or the end of the line when there is none. */
  function NextCode(line: string, from: nat): (e: nat)
    requires from <= |line|
    decreases |line| - from
    ensures from <= e <= |line|
    ensures e == |line| || IsCodeAt(line, e)
    ensures forall q :: from <= q < e ==> !IsCodeAt(line, q)
  {
    if from + 7 > |line| then |line|
    else if IsCodeAt(line, from) then from
    else NextCode(line, from + 1)
  }

  /** One turn of the `zip_longest` loop: the match `occs[k]` and where its message ends. */
  function AnnotationAt(line: string, lineno: nat, occs: seq<nat>, k: nat): Annotation
    requires k < |occs|
  {
    var p := occs[k];
    var end := if k + 1 < |occs| then occs[k + 1] else |line|;
    // Matches found by `Occurrences` always pass this test (`AnnotationAtDescribes`).
    if p + 7 <= end <= |line| then Annotation(lineno, p, line[p + 2..p + 7], Strip(line[p + 7..end]))
    else Annotation(lineno, p, "", "")
  }

  /** A match of `Occurrences` ends before the next match starts, or before
      the end of the line, so the turn of the loop takes its code and message
      from the line. */
  lemma MatchFits(line: string, lineno: nat, occs: seq<nat>, k: nat)
    requires occs == Occurrences(line) && k < |occs|
    ensures var end := if k + 1 < |occs| then occs[k + 1] else |line|;
      && occs[k] + 7 <= end <= |line|
      && AnnotationAt(line, lineno, occs, k)
         == Annotation(lineno, occs[k], line[occs[k] + 2..occs[k] + 7], Strip(line[occs[k] + 7..end]))
  {
    assert Spaced(occs);
  }

  /** Between two consecutive matches, and after the last one, no annotation starts. */
  lemma NoCodeBetween(line: string, occs: seq<nat>, k: nat, q: int)
    requires occs == Occurrences(line) && k < |occs|
    requires occs[k] < q && (k + 1 < |occs| ==> q < occs[k + 1])
    ensures !IsCodeAt(line, q)
  {
    forall j | 0 <= j < |occs|
      ensures occs[j] != q
    {
      assert Spaced(occs);
    }
  }

  /** `NextCode` is the unique end with no annotation before it. */
  lemma NextCodeIs(line: string, from: nat, e: nat)
    requires from <= e <= |line|
    requires e == |line| || IsCodeAt(line, e)
    requires forall q :: from <= q < e ==> !IsCodeAt(line, q)
    ensures NextCode(line, from) == e
  {
  }

  /** The first `k` turns of the `zip_longest` loop over the matches `occs`. */
  function AnnotationsUpTo(line: string, lineno: nat, occs: seq<nat>, k: nat): seq<Annotation>
    requires k <= |occs|
  {
    if k == 0 then []
    else AnnotationsUpTo(line, lineno, occs, k - 1) + [AnnotationAt(line, lineno, occs, k - 1)]
  }

  /** The substring `s[lo..hi]` has an annotation only where `s` has one. */
  lemma CodeInSlice(s: string, lo: nat, hi: nat, j: int)
    requires lo <= hi <= |s|
    requires IsCodeAt(s[lo..hi], j)
    ensures IsCodeAt(s, lo + j)
  {
    var t := s[lo..hi];
    assert t[j..j + 7] == s[lo + j..lo + j + 7];
  }

  /** A stretch of `s` where no annotation starts holds none as a substring either. */
  lemma NoCodeInSlice(s: string, lo: nat, hi: nat)
    requires lo <= hi <= |s|
    requires forall q :: lo <= q < hi ==> !IsCodeAt(s, q)
    ensures forall j :: !IsCodeAt(s[lo..hi], j)
  {
    forall j | IsCodeAt(s[lo..hi], j)
      ensures false
    {
      CodeInSlice(s, lo, hi, j);
    }
  }

  /** Stripping cannot create an annotation. */
  lemma StripNoCode(t: string)
    requires forall j :: !IsCodeAt(t, j)
    ensures forall j :: !IsCodeAt(Strip(t), j)
  {
    StripIsTrimmedSlice(t);
    var x, y :| TrimmedSlice(t, x, y) && Strip(t) == t[x..y];
    NoCodeInSlice(t, x, y);
  }
}

=== FILE: normalizer.dfy ===
/** The column normaliser `re.sub(":[0-9]+: ", ": ", output)` of
    tests/test_pyi_files.py, line 56: every `:<digits>: ` becomes `: `, so that
    `path:line:column: message` loses its column. */
module Normalizer {
  import opened Text

  // ---------------------------------------------------------------- the pattern

  /** The pattern `:[0-9]+: ` matches `s[i..i + len]`. */
  predicate MatchesAt(s: string, i: int, len: int) {
    && 0 <= i && 4 <= len && i + len <= |s|
    && s[i] == ':'
    && AllDigits(s[i + 1..i + len - 2])
    && s[i + len - 2] == ':'
    && s[i + len - 1] == ' '
  }

  /** Text the pattern cannot touch: it has no `:`. */
  predicate ColonFree(s: string) {
    forall i :: 0 <= i < |s| ==> s[i] != ':'
  }

  /** The pattern occurs nowhere in `s`. */
  ghost predicate NoMarker(s: string) {
    forall i, len :: !MatchesAt(s, i, len)
  }

  /** The scan's test at the front of `s`: a `:`, the longest run of digits
      after it (non-empty), then `: `. Trying a shorter run of digits cannot
      succeed, since a digit, not a `:`, would follow it. */
  predicate ColumnHere(s: string) {
    && |s| > 0 && s[0] == ':'
    && var n := DigitRun(s[1..]);
    && 0 < n && n + 3 <= |s|
    && s[n + 1] == ':' && s[n + 2] == ' '
  }

  /** Length of the match `ColumnHere` found. */
  function ColumnLength(s: string): nat
    requires ColumnHere(s)
  {
    DigitRun(s[1..]) + 3
  }

  /** `re.sub(":[0-9]+: ", ": ", s)`: scan from the left; replace a match and
      resume after it, otherwise keep one character. */
  function Normalize(s: string): (r: string)
    decreases |s|
    ensures |r| <= |s|
  {
    if |s| == 0 then ""
    else if ColumnHere(s) then ": " + Normalize(s[ColumnLength(s)..])
    else [s[0]] + Normalize(s[1..])
  }

  // ---------------------------------------------------------------- the scan is the regex

  /** `DigitRun` measures a digit string followed by a non-digit exactly. */
  lemma {:induction false} DigitRunOf(d: string, s: string)
    requires AllDigits(d)
    requires |s| == 0 || !IsDigit(s[0])
    ensures DigitRun(d + s) == |d|
  {
    if |d| > 0 {
      assert (d + s)[1..] == d[1..] + s;
      DigitRunOf(d[1..], s);
    } else {
      assert d + s == s;
    }
  }

  /** Where the pattern matches, the scan's test succeeds with the same length. */
  lemma MatchIsColumn(s: string, len: int)
    requires MatchesAt(s, 0, len)
    ensures ColumnHere(s) && ColumnLength(s) == len
  {
    var d := s[1..len - 2];
    var rest := s[len - 2..];
    assert s[1..] == d + rest;
    assert rest[0] == ':';
    DigitRunOf(d, rest);
  }

  /** Where the scan's test succeeds, the pattern matches. */
  lemma ColumnMatch(s: string)
    ensures ColumnHere(s) ==> MatchesAt(s, 0, ColumnLength(s))
  {
    if ColumnHere(s) {
      var n := DigitRun(s[1..]);
      DigitRunIsDigits(s[1..]);
      assert s[1..n + 1] == s[1..][..n];
    }
  }

  /** The scan's test succeeds exactly where the pattern matches, and the two
      agree on the length of the match. */
  lemma ColumnHereIsMatch(s: string, len: int)
    ensures MatchesAt(s, 0, len) <==> ColumnHere(s) && len == ColumnLength(s)
  {
    if MatchesAt(s, 0, len) {
      MatchIsColumn(s, len);
    }
    ColumnMatch(s);
  }

  /** At a given index the pattern matches with at most one length. */
  lemma MatchUnique(s: string, i: int, len1: int, len2: int)
    requires MatchesAt(s, i, len1) && MatchesAt(s, i, len2)
    ensures len1 == len2
  {
    var t := s[i..];
    assert MatchesAt(t, 0, len1) by { assert t[1..len1 - 2] == s[i + 1..i + len1 - 2]; }
    assert MatchesAt(t, 0, len2) by { assert t[1..len2 - 2] == s[i + 1..i + len2 - 2]; }
    ColumnHereIsMatch(t, len1);
    ColumnHereIsMatch(t, len2);
  }

  /** `re.sub` as the regex semantics state it: at each position, if the
      pattern matches there (with whatever length), emit the replacement and
      resume after the match; otherwise keep the character. */
  ghost function ReSub(s: string): string
    decreases |s|
  {
    if exists len :: MatchesAt(s, 0, len) then
      var len :| MatchesAt(s, 0, len);
      ": " + ReSub(s[len..])
    else if |s| == 0 then ""
    else [s[0]] + ReSub(s[1..])
  }

  /** The deterministic scan computes exactly the regex substitution. */
  lemma {:induction false} NormalizeIsReSub(s: string)
    ensures Normalize(s) == ReSub(s)
    decreases |s|
  {
    if ColumnHere(s) {
      var n := ColumnLength(s);
      forall len | MatchesAt(s, 0, len)
        ensures len == n
      {
        ColumnHereIsMatch(s, len);
      }
      ColumnMatch(s);
      NormalizeIsReSub(s[n..]);
    } else {
      forall len
        ensures !MatchesAt(s, 0, len)
      {
        ColumnHereIsMatch(s, len);
      }
      if |s| > 0 {
        NormalizeIsReSub(s[1..]);
      }
    }
  }

  // ---------------------------------------------------------------- what it leaves alone

  /** A pattern match inside a suffix of `s` is a match in `s`, shifted. */
  lemma MatchInSuffix(s: string, k: nat, i: int, len: int)
    requires k <= |s|
    requires MatchesAt(s[k..], i, len)
    ensures MatchesAt(s, k + i, len)
  {
    assert s[k..][i + 1..i + len - 2] == s[k + i + 1..k + i + len - 2];
  }

  /** Text where the pattern never matches comes out unchanged, and text that
      comes out unchanged holds no match: the substitution is the identity
      exactly on marker-free text. */
  lemma {:induction false} NormalizeFixedIff(s: string)
    ensures Normalize(s) == s <==> NoMarker(s)
    decreases |s|
  {
    if NoMarker(s) {
      NoMarkerUnchanged(s);
    } else {
      var i, len :| MatchesAt(s, i, len);
      MarkerShrinks(s, i, len);
    }
  }

  lemma {:induction false} NoMarkerUnchanged(s: string)
    requires NoMarker(s)
    ensures Normalize(s) == s
    decreases |s|
  {
    if |s| > 0 {
      ColumnMatch(s);
      forall i, len
        ensures !MatchesAt(s[1..], i, len)
      {
        if MatchesAt(s[1..], i, len) {
          MatchInSuffix(s, 1, i, len);
        }
      }
      NoMarkerUnchanged(s[1..]);
    }
  }

  /** A match anywhere makes the output strictly shorter. */
  lemma {:induction false} MarkerShrinks(s: string, i: int, len: int)
    requires MatchesAt(s, i, len)
    ensures |Normalize(s)| < |s|
    decreases |s|
  {
    if ColumnHere(s) {
    } else if i == 0 {
      ColumnHereIsMatch(s, len);
    } else {
      assert MatchesAt(s[1..], i - 1, len) by {
        assert s[1..][i..i + len - 3] == s[i + 1..i + len - 2];
      }
      MarkerShrinks(s[1..], i - 1, len);
    }
  }

  /** Text without a `:` is left unchanged. */
  lemma NoColonUnchanged(s: string)
    requires ColonFree(s)
    ensures Normalize(s) == s
  {
    forall i, len
      ensures !MatchesAt(s, i, len)
    {
    }
    NormalizeFixedIff(s);
  }

  // ---------------------------------------------------------------- how it composes

  /** A prefix without `:` passes through unchanged, ahead of the rest. */
  lemma {:induction false} ColonFreePrefix(x: string, y: string)
    requires ColonFree(x)
    ensures Normalize(x + y) == x + Normalize(y)
    decreases |x|
  {
    if |x| > 0 {
      assert (x + y)[1..] == x[1..] + y;
      ColonFreePrefix(x[1..], y);
      assert x + Normalize(y) == [x[0]] + (x[1..] + Normalize(y));
    } else {
      assert x + y == y;
    }
  }

  /** The scan's test only looks at the characters of the match. */
  lemma ColumnHereExtends(a: string, b: string)
    requires ColumnHere(a)
    ensures ColumnHere(a + b) && ColumnLength(a + b) == ColumnLength(a)
  {
    var len := ColumnLength(a);
    ColumnHereIsMatch(a, len);
    assert (a + b)[1..len - 2] == a[1..len - 2];
    assert MatchesAt(a + b, 0, len);
    ColumnHereIsMatch(a + b, len);
  }

  /** A match in `a + b` that starts in `a` ends in `a` when `a`'s last
      character is neither a digit nor `:`. */
  lemma ColumnHereStaysLeft(a: string, b: string)
    requires |a| > 0 && a[|a| - 1] != ':' && !IsDigit(a[|a| - 1])
    requires ColumnHere(a + b)
    ensures ColumnHere(a) && ColumnLength(a) == ColumnLength(a + b) <= |a|
  {
    var s := a + b;
    var len := ColumnLength(s);
    ColumnHereIsMatch(s, len);
    // Every character of the match but its final space is `:` or a digit.
    forall j | 0 <= j <= len - 2
      ensures s[j] == ':' || IsDigit(s[j])
    {
      if 1 <= j <= len - 3 {
        assert s[1..len - 2][j - 1] == s[j];
      }
    }
    assert s[|a| - 1] == a[|a| - 1];
    assert len <= |a|;
    assert a[1..len - 2] == s[1..len - 2];
    assert MatchesAt(a, 0, len);
    ColumnHereIsMatch(a, len);
  }

  /** Output that splits after a character which cannot be part of a match
      (such as a line's final newline) normalises piece by piece. */
  lemma {:induction false} SeparatedConcat(a: string, b: string)
    requires |a| == 0 || (a[|a| - 1] != ':' && !IsDigit(a[|a| - 1]))
    ensures Normalize(a + b) == Normalize(a) + Normalize(b)
    decreases |a|
  {
    if |a| == 0 {
      assert a + b == b;
    } else {
      var s := a + b;
      if ColumnHere(s) {
        ColumnHereStaysLeft(a, b);
        var len := ColumnLength(s);
        assert s[len..] == a[len..] + b;
        SeparatedConcat(a[len..], b);
      } else {
        if ColumnHere(a) {
          ColumnHereExtends(a, b);
        }
        assert s[1..] == a[1..] + b;
        SeparatedConcat(a[1..], b);
      }
    }
  }

  // ---------------------------------------------------------------- dropping a column

  /** `:C: R` with a digit string `C` loses `:C`. */
  lemma ColumnAtFront(c: string, r: string)
    requires DigitString(c)
    ensures Normalize(":" + c + ": " + r) == ": " + Normalize(r)
  {
    var s := ":" + c + ": " + r;
    assert s[1..] == c + (": " + r);
    DigitRunOf(c, ": " + r);
    assert s[|c| + 1] == ':' && s[|c| + 2] == ' ';
    assert s[|c| + 3..] == r;
  }

  /** Digits are not `:`. */
  lemma DigitsColonFree(l: string)
    requires AllDigits(l)
    ensures ColonFree(l)
  {
  }

  /** `:L` followed by `:` and something other than a space is no match,
      so the scan keeps the `:`. */
  lemma DigitsThenNoSpace(l: string, x: string)
    requires DigitString(l)
    requires |x| >= 2 && x[0] == ':' && x[1] != ' '
    ensures Normalize(":" + l + x) == ":" + Normalize(l + x)
  {
    var s := ":" + l + x;
    assert s[1..] == l + x;
    DigitRunOf(l, x);
    assert s[|l| + 2] == x[1];
    KeepFirst(s);
  }

  /** `:L` followed by `:` and something other than a space is kept. */
  lemma DigitsKept(l: string, x: string)
    requires DigitString(l)
    requires |x| >= 2 && x[0] == ':' && x[1] != ' '
    ensures Normalize(":" + l + x) == ":" + l + Normalize(x)
  {
    DigitsThenNoSpace(l, x);
    DigitsColonFree(l);
    ColonFreePrefix(l, x);
    ConcatAssoc(":", l, Normalize(x));
  }

  /** Where no match starts, the first character is kept. */
  lemma KeepFirst(s: string)
    requires |s| > 0 && !ColumnHere(s)
    ensures Normalize(s) == [s[0]] + Normalize(s[1..])
  {
  }

  /** `P:L:C: R` becomes `P:L: R` when `P` has no `:`, `L` and `C` are digit
      strings and `R` holds no match. */
  lemma DropColumn(p: string, l: string, c: string, r: string)
    requires ColonFree(p)
    requires DigitString(l) && DigitString(c)
    requires NoMarker(r)
    ensures Normalize(p + ":" + l + ":" + c + ": " + r) == p + ":" + l + ": " + r
  {
    NoMarkerUnchanged(r);
    DropColumnFixed(p, l, c, r);
  }

  lemma DropColumnFixed(p: string, l: string, c: string, r: string)
    requires ColonFree(p)
    requires DigitString(l) && DigitString(c)
    requires Normalize(r) == r
    ensures Normalize(p + ":" + l + ":" + c + ": " + r) == p + ":" + l + ": " + r
  {
    DropColumnRest(p, l, c, r);
  }

  /** Whatever `R` holds, `P:L:C: R` keeps `P:L`, loses `:C` and goes on
      normalising `R`. */
  lemma DropColumnRest(p: string, l: string, c: string, r: string)
    requires ColonFree(p)
    requires DigitString(l) && DigitString(c)
    ensures Normalize(p + ":" + l + ":" + c + ": " + r) == p + ":" + l + ": " + Normalize(r)
  {
    var col := ":" + c + ": " + r;
    var line := ":" + l + col;
    assert p + ":" + l + ":" + c + ": " + r == p + line;
    ColonFreePrefix(p, line);
    DigitsKept(l, col);
    ColumnAtFront(c, r);
    assert p + ":" + l + ": " + Normalize(r) == p + (":" + l + (": " + Normalize(r)));
  }

  /** `P:L: R` becomes `P: R`: an already normalised line loses its line number. */
  lemma DropColumnOnce(p: string, l: string, r: string)
    requires ColonFree(p)
    requires DigitString(l)
    requires NoMarker(r)
    ensures Normalize(p + ":" + l + ": " + r) == p + ": " + r
  {
    NoMarkerUnchanged(r);
    DropColumnOnceFixed(p, l, r);
  }

  lemma DropColumnOnceFixed(p: string, l: string, r: string)
    requires ColonFree(p)
    requires DigitString(l)
    requires Normalize(r) == r
    ensures Normalize(p + ":" + l + ": " + r) == p + ": " + r
  {
    var col := ":" + l + ": " + r;
    assert p + ":" + l + ": " + r == p + col;
    ColonFreePrefix(p, col);
    ColumnAtFront(l, r);
    assert p + ": " + r == p + (": " + r);
  }

  /** Applied to its own output the substitution can change the text again:
      it is not idempotent. A line `P:L:C: R` loses its column on the first
      pass and its line number on the second. */
  lemma NotIdempotent(p: string, l: string, c: string, r: string)
    requires ColonFree(p)
    requires DigitString(l) && DigitString(c)
    requires NoMarker(r)
    ensures Normalize(Normalize(p + ":" + l + ":" + c + ": " + r)) == p + ": " + r
    ensures Normalize(Normalize(p + ":" + l + ":" + c + ": " + r)) != Normalize(p + ":" + l + ":" + c + ": " + r)
  {
    DropColumn(p, l, c, r);
    DropColumnOnce(p, l, r);
    assert |p + ": " + r| < |p + ":" + l + ": " + r|;
  }
}

=== FILE: text.dfy ===
/** Character classes and the Python string operations the fixture test relies on:
    `str.strip()` and `str.split()` called without an argument, `str(n)` for a
    non-negative int, and `int(s)` for a string of ASCII digits. */
module Text {

  /** Python's `str.isspace()`: exactly the code points that `str.split()` and
      `str.strip()` treat as whitespace when called without an argument. */
  predicate IsSpace(c: char) {
    || ('\t' <= c <= '\r')
    || ('\U{1C}' <= c <= '\U{1F}')
    || c == ' '
    || c == '\U{85}'
    || c == '\U{A0}'
    || c == '\U{1680}'
    || ('\U{2000}' <= c <= '\U{200A}')
    || c == '\U{2028}'
    || c == '\U{2029}'
    || c == '\U{202F}'
    || c == '\U{205F}'
    || c == '\U{3000}'
  }

  /** An ASCII digit, the `[0-9]` class (and `\d` restricted to ASCII). */
  predicate IsDigit(c: char) { '0' <= c <= '9' }

  /** The `[A-Z]` class. */
  predicate IsUpper(c: char) { 'A' <= c <= 'Z' }

  predicate AllDigits(s: string) { forall i :: 0 <= i < |s| ==> IsDigit(s[i]) }

  /** A non-empty run of ASCII digits, the regex `[0-9]+`. */
  predicate DigitString(s: string) { |s| > 0 && AllDigits(s) }

  predicate AllSpace(s: string) { forall i :: 0 <= i < |s| ==> IsSpace(s[i]) }

  predicate NoSpace(s: string) { forall i :: 0 <= i < |s| ==> !IsSpace(s[i]) }

  /** `s.startswith(prefix)` */
  predicate StartsWith(s: string, prefix: string) {
    |prefix| <= |s| && s[..|prefix|] == prefix
  }

  /** `s.endswith(suffix)` */
  predicate EndsWith(s: string, suffix: string) {
    |suffix| <= |s| && s[|s| - |suffix|..] == suffix
  }

  /** A string with no leading and no trailing whitespace. */
  predicate Stripped(s: string) {
    |s| == 0 || (!IsSpace(s[0]) && !IsSpace(s[|s| - 1]))
  }

  /** Concatenation regroups freely. */
  lemma ConcatAssoc<T>(a: seq<T>, b: seq<T>, c: seq<T>)
    ensures a + b + c == a + (b + c)
  {
  }

  // ---------------------------------------------------------------- strip()

  /** Number of leading whitespace characters of `s`. */
  function LeadingSpace(s: string): (n: nat)
    ensures n <= |s|
    ensures n == |s| || !IsSpace(s[n])
  {
    if |s| > 0 && IsSpace(s[0]) then 1 + LeadingSpace(s[1..]) else 0
  }

  lemma {:induction false} LeadingSpaceIsSpace(s: string)
    ensures AllSpace(s[..LeadingSpace(s)])
  {
    if |s| > 0 && IsSpace(s[0]) {
      LeadingSpaceIsSpace(s[1..]);
      assert s[..LeadingSpace(s)] == [s[0]] + s[1..][..LeadingSpace(s[1..])];
    }
  }

  /** Number of trailing whitespace characters of `s`. */
  function TrailingSpace(s: string): (n: nat)
    ensures n <= |s|
    ensures n == |s| || !IsSpace(s[|s| - n - 1])
  {
    if |s| > 0 && IsSpace(s[|s| - 1]) then 1 + TrailingSpace(s[..|s| - 1]) else 0
  }

  lemma {:induction false} TrailingSpaceIsSpace(s: string)
    ensures AllSpace(s[|s| - TrailingSpace(s)..])
  {
    if |s| > 0 && IsSpace(s[|s| - 1]) {
      var u := s[..|s| - 1];
      TrailingSpaceIsSpace(u);
      assert s[|s| - TrailingSpace(s)..] == u[|u| - TrailingSpace(u)..] + [s[|s| - 1]];
    }
  }

  /** `s[a..b]` is what is left of `s` once its leading and trailing whitespace
      is removed. */
  predicate TrimmedSlice(s: string, a: int, b: int) {
    && 0 <= a <= b <= |s|
    && AllSpace(s[..a])
    && AllSpace(s[b..])
    && Stripped(s[a..b])
  }

  /** `s.lstrip()` */
  function StripStart(s: string): string {
    if |s| > 0 && IsSpace(s[0]) then StripStart(s[1..]) else s
  }

  /** `s.rstrip()` */
  function StripEnd(s: string): string {
    if |s| > 0 && IsSpace(s[|s| - 1]) then StripEnd(s[..|s| - 1]) else s
  }

  /** `s.strip()` */
  function Strip(s: string): string {
    StripEnd(StripStart(s))
  }

  lemma {:induction false} StripStartDrops(s: string)
    ensures StripStart(s) == s[LeadingSpace(s)..]
  {
    if |s| > 0 && IsSpace(s[0]) {
      StripStartDrops(s[1..]);
    }
  }

  lemma {:induction false} StripEndDrops(s: string)
    ensures StripEnd(s) == s[..|s| - TrailingSpace(s)]
  {
    if |s| > 0 && IsSpace(s[|s| - 1]) {
      StripEndDrops(s[..|s| - 1]);
    }
  }

  /** `Strip` removes whitespace from both ends and nothing else. */
  lemma StripIsTrimmedSlice(s: string)
    ensures exists a, b :: TrimmedSlice(s, a, b) && Strip(s) == s[a..b]
  {
    var a := LeadingSpace(s);
    var t := s[a..];
    StripStartDrops(s);
    StripEndDrops(t);
    var b := a + |t| - TrailingSpace(t);
    LeadingSpaceIsSpace(s);
    TrailingSpaceIsSpace(t);
    assert t[..|t| - TrailingSpace(t)] == s[a..b];
    assert s[b..] == t[|t| - TrailingSpace(t)..];
    var r := s[a..b];
    assert Stripped(r) by {
      if |r| > 0 {
        assert r[0] == s[a];
        assert r[|r| - 1] == t[|t| - TrailingSpace(t) - 1];
      }
    }
  }

  /** The first non-space character of `s` sits at `LeadingSpace(s)`. */
  lemma {:induction false} FirstNonSpace(s: string, a: nat)
    requires a <= |s| && AllSpace(s[..a])
    requires a == |s| || !IsSpace(s[a])
    ensures LeadingSpace(s) == a
  {
    if a > 0 {
      assert s[..a][0] == s[0];
      assert s[1..][..a - 1] == s[..a][1..];
      FirstNonSpace(s[1..], a - 1);
    }
  }

  /** The last non-space character of `s` sits just before `|s| - TrailingSpace(s)`. */
  lemma LastNonSpace(s: string, b: nat)
    requires b <= |s| && AllSpace(s[b..])
    requires b == 0 || !IsSpace(s[b - 1])
    ensures TrailingSpace(s) == |s| - b
  {
  }

  /** Only one slice of `s` is trimmed: `Strip` is the unique answer. */
  lemma StripUnique(s: string, a: int, b: int)
    requires TrimmedSlice(s, a, b)
    ensures Strip(s) == s[a..b]
  {
    StripStartDrops(s);
    StripEndDrops(s[LeadingSpace(s)..]);
    if a == b {
      forall i | 0 <= i < |s|
        ensures IsSpace(s[i])
      {
        if i < a { assert s[..a][i] == s[i]; } else { assert s[b..][i - b] == s[i]; }
      }
      FirstNonSpace(s, |s|);
      assert s[..|s|] == s;
    } else {
      FirstNonSpace(s, a);
      var t := s[a..];
      assert t[..b - a] == s[a..b];
      assert t[b - a..] == s[b..];
      LastNonSpace(t, b - a);
    }
  }

  // ---------------------------------------------------------------- split()

  /** Length of the leading run of non-whitespace characters of `s`. */
  function WordLength(s: string): (n: nat)
    ensures n <= |s|
    ensures n == |s| || IsSpace(s[n])
  {
    if |s| > 0 && !IsSpace(s[0]) then 1 + WordLength(s[1..]) else 0
  }

  lemma {:induction false} WordLengthNoSpace(s: string)
    ensures NoSpace(s[..WordLength(s)])
  {
    if |s| > 0 && !IsSpace(s[0]) {
      WordLengthNoSpace(s[1..]);
      assert s[..WordLength(s)] == [s[0]] + s[1..][..WordLength(s[1..])];
    }
  }

  /** A token `str.split()` can produce: non-empty, without whitespace. */
  predicate IsWord(w: string) { |w| > 0 && NoSpace(w) }

  /** `s.split()`: the maximal runs of non-whitespace characters, in order. */
  function Split(s: string): seq<string>
    decreases |s|
  {
    var t := s[LeadingSpace(s)..];
    if |t| == 0 then []
    else
      var w := WordLength(t);
      [t[..w]] + Split(t[w..])
  }

  /** Every token of `split()` is a word. */
  lemma {:induction false} SplitIsWords(s: string)
    ensures forall i :: 0 <= i < |Split(s)| ==> IsWord(Split(s)[i])
    decreases |s|
  {
    var t := s[LeadingSpace(s)..];
    if |t| > 0 {
      var w := WordLength(t);
      WordLengthNoSpace(t);
      SplitIsWords(t[w..]);
    }
  }

  /** `" ".join(ws)` */
  function JoinWords(ws: seq<string>): string {
    if |ws| == 0 then ""
    else if |ws| == 1 then ws[0]
    else ws[0] + " " + JoinWords(ws[1..])
  }

  /** Leading whitespace never changes what `split()` returns. */
  lemma SplitSkipsSpace(space: string, s: string)
    requires AllSpace(space)
    ensures Split(space + s) == Split(s)
  {
    var u := space + s;
    var k := LeadingSpace(s);
    LeadingSpaceIsSpace(s);
    forall i | 0 <= i < |space| + k
      ensures IsSpace(u[i])
    {
      if i >= |space| { assert s[..k][i - |space|] == u[i]; }
    }
    assert AllSpace(u[..|space| + k]);
    FirstNonSpace(u, |space| + k);
    assert u[LeadingSpace(u)..] == s[LeadingSpace(s)..];
  }

  /** A word followed by whitespace (or by nothing) is split off whole. */
  lemma SplitWord(w: string, s: string)
    requires IsWord(w)
    requires |s| == 0 || IsSpace(s[0])
    ensures Split(w + s) == [w] + Split(s)
  {
    var u := w + s;
    assert LeadingSpace(u) == 0;
    assert u[..|w|] == w;
    WordLengthOfWord(w, s);
    assert u[|w|..] == s;
  }

  /** A word and a space are split off together. */
  lemma SplitWordSpace(w: string, s: string)
    requires IsWord(w)
    ensures Split(w + " " + s) == [w] + Split(s)
  {
    assert w + " " + s == w + (" " + s);
    SplitWord(w, " " + s);
    assert AllSpace(" ");
    SplitSkipsSpace(" ", s);
  }

  lemma {:induction false} WordLengthOfWord(w: string, s: string)
    requires NoSpace(w)
    requires |s| == 0 || IsSpace(s[0])
    ensures WordLength(w + s) == |w|
  {
    if |w| > 0 {
      assert (w + s)[1..] == w[1..] + s;
      WordLengthOfWord(w[1..], s);
    } else {
      assert w + s == s;
    }
  }

  /** Splitting undoes joining with single spaces. */
  lemma {:induction false} SplitJoin(ws: seq<string>)
    requires forall i :: 0 <= i < |ws| ==> IsWord(ws[i])
    ensures Split(JoinWords(ws)) == ws
  {
    if |ws| == 0 {
    } else if |ws| == 1 {
      SplitWord(ws[0], "");
      assert ws[0] + "" == ws[0];
    } else {
      SplitWordSpace(ws[0], JoinWords(ws[1..]));
      SplitJoin(ws[1..]);
      assert ws == [ws[0]] + ws[1..];
    }
  }

  // ---------------------------------------------------------------- decimal numbers

  function DigitValue(c: char): nat
    requires IsDigit(c)
  {
    c as int - '0' as int
  }

  function DigitChar(d: nat): (c: char)
    requires d < 10
    ensures IsDigit(c) && DigitValue(c) == d
  {
    ('0' as int + d) as char
  }

  /** `int(s)` for a string of ASCII digits; leading zeros are allowed. */
  function DigitsValue(s: string): nat
    requires AllDigits(s)
    decreases |s|
  {
    if |s| == 0 then 0 else 10 * DigitsValue(s[..|s| - 1]) + DigitValue(s[|s| - 1])
  }

  /** A digit string as `str(n)` writes it: non-empty, no superfluous leading zero. */
  predicate Canonical(s: string) {
    DigitString(s) && (s[0] == '0' ==> |s| == 1)
  }

  /** `str(n)` for a non-negative int. */
  function Decimal(n: nat): (r: string)
    ensures Canonical(r)
    ensures DigitsValue(r) == n
  {
    if n < 10 then [DigitChar(n)]
    else
      var r := Decimal(n / 10) + [DigitChar(n % 10)];
      assert r[..|r| - 1] == Decimal(n / 10);
      r
  }

  lemma {:induction false} LeadingDigitPositive(s: string)
    requires Canonical(s) && s[0] != '0'
    ensures DigitsValue(s) > 0
    decreases |s|
  {
    if |s| > 1 {
      LeadingDigitPositive(s[..|s| - 1]);
    }
  }

  /** Reading a canonical digit string back and printing it again gives it back. */
  lemma {:induction false} DecimalRoundTrip(s: string)
    requires Canonical(s)
    ensures Decimal(DigitsValue(s)) == s
    decreases |s|
  {
    if |s| > 1 {
      var init := s[..|s| - 1];
      assert Canonical(init);
      LeadingDigitPositive(init);
      DecimalRoundTrip(init);
      assert s == init + [s[|s| - 1]];
    }
  }

  // ---------------------------------------------------------------- digit runs

  /** Length of the leading run of ASCII digits of `s`. */
  function DigitRun(s: string): (n: nat)
    ensures n <= |s|
    ensures n == |s| || !IsDigit(s[n])
  {
    if |s| > 0 && IsDigit(s[0]) then 1 + DigitRun(s[1..]) else 0
  }

  lemma {:induction false} DigitRunIsDigits(s: string)
    ensures AllDigits(s[..DigitRun(s)])
  {
    if |s| > 0 && IsDigit(s[0]) {
      DigitRunIsDigits(s[1..]);
      assert s[..DigitRun(s)] == [s[0]] + s[1..][..DigitRun(s[1..])];
    }
  }

  /** Length of the trailing run of ASCII digits of `s`. */
  function TrailingDigits(s: string): (n: nat)
    ensures n <= |s|
    ensures AllDigits(s[|s| - n..])
    ensures n == |s| || !IsDigit(s[|s| - n - 1])
  {
    if |s| > 0 && IsDigit(s[|s| - 1]) then 1 + TrailingDigits(s[..|s| - 1]) else 0
  }

  /** The trailing digit run ends where the first non-digit from the right is. */
  lemma {:induction false} LastNonDigit(s: string, b: nat)
    requires b <= |s| && AllDigits(s[b..])
    requires b == 0 || !IsDigit(s[b - 1])
    ensures TrailingDigits(s) == |s| - b
  {
    if b < |s| {
      var s' := s[..|s| - 1];
      assert s[b..][|s| - 1 - b] == s[|s| - 1];
      assert s'[b..] == s[b..][..|s| - 1 - b];
      LastNonDigit(s', b);
    }
  }
}

=== FILE: version_gate.dfy ===
/** Whether a fixture applies to the running interpreter: a fixture whose name
    ends in `_py3<N>.pyi` needs Python 3.N or later, any other fixture always
    runs (tests/test_pyi_files.py, lines 16-19). The skip is a returned boolean
    rather than pytest's exception. */
module VersionGate {
  import opened Text
  import opened Wrappers

  /** The first two fields of `sys.version_info`. */
  datatype Version = Version(major: nat, minor: nat)

  /** Python's tuple comparison `(v.major, v.minor) < (major, minor)`. */
  predicate Older(v: Version, major: nat, minor: nat) {
    v.major < major || (v.major == major && v.minor < minor)
  }

  /** What the regex `_py3(\d+)\.pyi$` means: the path ends with `_py3`, then a
      non-empty digit group `d`, then `.pyi`, optionally followed by the one
      final newline that `$` also accepts. */
  ghost predicate SuffixMatches(path: string, d: string) {
    && DigitString(d)
    && (EndsWith(path, "_py3" + d + ".pyi") || EndsWith(path, "_py3" + d + ".pyi\n"))
  }

  /** The part of `path` before a final `.pyi` (itself before at most one final newline). */
  function PyiStem(path: string): Option<string> {
    var p := if |path| > 0 && path[|path| - 1] == '\n' then path[..|path| - 1] else path;
    if EndsWith(p, ".pyi") then Some(p[..|p| - 4]) else None
  }

  /** The digit group when `stem` ends with `_py3` and digits: the maximal
      trailing digit run must be `3` followed by the group, preceded by `_py`. */
  function StemGroup(stem: string): (r: Option<string>)
    ensures r.Some? ==> DigitString(r.value)
  {
    var k := |stem| - TrailingDigits(stem);
    if k + 2 <= |stem| && k >= 3 && stem[k - 3..k + 1] == "_py3" then
      assert stem[k + 1..] == stem[k..][1..];
      Some(stem[k + 1..])
    else None
  }

  /** The digit group of `re.search(r"_py3(\d+)\.pyi$", path)`, or None when the
      search fails. */
  function VersionSuffix(path: string): (r: Option<string>)
    ensures r.Some? ==> DigitString(r.value)
  {
    match PyiStem(path)
    case None => None
    case Some(stem) => StemGroup(stem)
  }

  /** `int(match.group(1))` when the fixture name carries a version suffix. */
  function RequiredMinor(path: string): Option<nat> {
    match VersionSuffix(path)
    case None => None
    case Some(d) => Some(DigitsValue(d))
  }

  /** True when the fixture is to be skipped on interpreter version `v`. */
  function ShouldSkip(path: string, v: Version): bool {
    match RequiredMinor(path)
    case None => false
    case Some(n) => Older(v, 3, n)
  }

  lemma EndsWithAppend(s: string, x: string, y: string)
    requires EndsWith(s, x)
    ensures EndsWith(s + y, x + y)
  {
    assert (s + y)[|s + y| - |x + y|..] == s[|s| - |x|..] + y;
  }

  lemma EndsWithSplit(s: string, x: string, y: string)
    requires EndsWith(s, x + y)
    ensures EndsWith(s, y) && EndsWith(s[..|s| - |y|], x)
  {
    assert s[|s| - |y|..] == (x + y)[|x|..];
    assert s[..|s| - |y|][|s| - |y| - |x|..] == (x + y)[..|x|];
  }

  /** What `PyiStem` strips off is exactly `.pyi` and at most one newline. */
  lemma PyiStemShape(path: string, stem: string)
    requires PyiStem(path) == Some(stem)
    ensures path == stem + ".pyi" || path == stem + ".pyi\n"
  {
    var p := if |path| > 0 && path[|path| - 1] == '\n' then path[..|path| - 1] else path;
    assert p == stem + ".pyi";
    if p != path {
      assert path == p + "\n";
    }
  }

  /** A path ending in `<x>.pyi`, possibly followed by a newline, has a stem ending in `x`. */
  lemma PyiStemEndsWith(path: string, x: string)
    requires EndsWith(path, x + ".pyi") || EndsWith(path, x + ".pyi\n")
    ensures PyiStem(path).Some? && EndsWith(PyiStem(path).value, x)
  {
    var p := if |path| > 0 && path[|path| - 1] == '\n' then path[..|path| - 1] else path;
    if EndsWith(path, x + ".pyi") {
      EndsWithSplit(path, x, ".pyi");
      assert path[|path| - 1] == 'i';
      assert p == path;
    } else {
      assert x + ".pyi\n" == (x + ".pyi") + "\n";
      EndsWithSplit(path, x + ".pyi", "\n");
      assert path[|path| - 1] == '\n';
    }
    assert EndsWith(p, x + ".pyi");
    EndsWithSplit(p, x, ".pyi");
  }

  lemma StemGroupSound(stem: string, d: string)
    requires StemGroup(stem) == Some(d)
    ensures EndsWith(stem, "_py3" + d)
  {
    var k := |stem| - TrailingDigits(stem);
    assert stem[k - 3..] == stem[k - 3..k + 1] + stem[k + 1..];
  }

  lemma StemGroupComplete(stem: string, d: string)
    requires DigitString(d)
    requires EndsWith(stem, "_py3" + d)
    ensures StemGroup(stem) == Some(d)
  {
    var b := |stem| - |d| - 1;
    assert stem[b - 3..] == "_py3" + d;
    assert stem[b - 1] == stem[b - 3..][2];
    assert stem[b..] == stem[b - 3..][3..];
    assert AllDigits(stem[b..]) by {
      forall i | 0 <= i < |stem[b..]|
        ensures IsDigit(stem[b..][i])
      {
        if i > 0 { assert stem[b..][i] == d[i - 1]; }
      }
    }
    LastNonDigit(stem, b);
    assert stem[b - 3..b + 1] == stem[b - 3..][..4];
    assert stem[b + 1..] == stem[b - 3..][4..];
  }

  /** The scan finds exactly the group the regex would match, and nothing when
      the regex does not match. */
  lemma VersionSuffixIsRegex(path: string, d: string)
    ensures VersionSuffix(path) == Some(d) <==> SuffixMatches(path, d)
  {
    if VersionSuffix(path) == Some(d) {
      var stem := PyiStem(path).value;
      StemGroupSound(stem, d);
      PyiStemShape(path, stem);
      EndsWithAppend(stem, "_py3" + d, ".pyi");
      if path != stem + ".pyi" {
        EndsWithAppend(stem + ".pyi", "_py3" + d + ".pyi", "\n");
      }
    }
    if SuffixMatches(path, d) {
      PyiStemEndsWith(path, "_py3" + d);
      StemGroupComplete(PyiStem(path).value, d);
    }
  }

  /** A fixture without the suffix is never skipped, whatever the version. */
  lemma UnsuffixedAlwaysRuns(path: string, v: Version)
    requires forall d :: !SuffixMatches(path, d)
    ensures !ShouldSkip(path, v)
  {
    if VersionSuffix(path).Some? {
      VersionSuffixIsRegex(path, VersionSuffix(path).value);
    }
  }

  /** With the suffix `_py3<d>`, the fixture is skipped exactly on versions
      older than `(3, int(d))`. */
  lemma SuffixedSkipsOlder(path: string, d: string, v: Version)
    requires SuffixMatches(path, d)
    ensures ShouldSkip(path, v) <==> v.major < 3 || (v.major == 3 && v.minor < DigitsValue(d))
  {
    VersionSuffixIsRegex(path, d);
  }

  /** `_py312` fixtures are skipped on 3.11 and run on 3.12. */
  lemma Py312Example()
    ensures ShouldSkip("tests/foo_py312.pyi", Version(3, 11))
    ensures !ShouldSkip("tests/foo_py312.pyi", Version(3, 12))
    ensures !ShouldSkip("tests/foo_py312.pyi", Version(4, 0))
    ensures ShouldSkip("tests/foo_py312.pyi", Version(2, 99))
  {
    var p := "tests/foo_py312.pyi";
    assert p[15..] == ".pyi" && p[..15] == "tests/foo_py312";
    assert PyiStem(p) == Some("tests/foo_py312");
    LastNonDigit("tests/foo_py312", 12);
    assert "tests/foo_py312"[13..] == "12";
    TwelveValue();
  }

  lemma TwelveValue()
    ensures DigitsValue("12") == 12
  {
  }

  /** A bare `_py3` suffix imposes nothing. */
  lemma BareSuffixExample(v: Version)
    ensures !ShouldSkip("tests/foo_py3.pyi", v)
  {
    var p := "tests/foo_py3.pyi";
    assert p[13..] == ".pyi" && p[..13] == "tests/foo_py3";
    assert PyiStem(p) == Some("tests/foo_py3");
    LastNonDigit("tests/foo_py3", 12);
  }

  /** A non-numeric `_py3x` suffix imposes nothing. */
  lemma NonNumericSuffixExample(v: Version)
    ensures !ShouldSkip("tests/foo_py3x.pyi", v)
  {
    var p := "tests/foo_py3x.pyi";
    assert p[14..] == ".pyi" && p[..14] == "tests/foo_py3x";
    assert PyiStem(p) == Some("tests/foo_py3x");
    LastNonDigit("tests/foo_py3x", 14);
  }

  /** Only the `.pyi` extension is gated. */
  lemma OtherExtensionExample(v: Version)
    ensures !ShouldSkip("tests/foo_py312.py", v)
  {
    var p := "tests/foo_py312.py";
    assert p[|p| - 4..] == "2.py";
    assert PyiStem(p) == None;
  }
}

=== FILE: wrappers.dfy ===
/** The optional value used wherever a pattern may or may not match. */
module Wrappers {

  datatype Option<+T> = None | Some(value: T)
}
